=== FILE: README.md ===
# Spy party game: the room state machine

The game server keeps one in-memory `rooms` object. It maps a four-letter room code
to a room: its players in join order, the host, the settings (category, spy count,
custom words), and the current round (secret word, roles, votes). Socket handlers
drive each room through its lifecycle:

- `create_room` and `join_room` seat players;
- the host changes settings and starts a round, which draws a secret word and
  deals the roles;
- every player votes;
- the round is resolved, when the last vote arrives or when anyone forces it;
- `disconnect` removes a player, hands the host role on, and deletes an empty room.

This project models each handler as a pure function. It takes the `rooms` object,
the caller's socket id and the payload. It returns the new `rooms` object and the
events emitted, in order (`Outcome.Next`). A handler that raises a `TypeError`
returns `Outcome.Threw`. Nothing in the server catches that error, so `Threw` stands
for the Node process ending, with every room in it; no state follows it. Randomness is
a parameter (`Draws`), and so is the order in which `for (code in rooms)` visits rooms:
a sequence that lists every room code.

The dispatcher `Server.Handle` runs the handlers with the crash corrected (see
"## Findings"): a vote or a reveal for a room whose votes were never set is ignored.
`Server.SubmitVote` and `Server.FinishGame` keep the behaviour as written.

Modules:

- `Types`: rooms, players, messages and events.
- `AssocList`: the JavaScript objects `votes` and `voteCounts`, as ordered
  association lists.
- `Catalog`: the built-in categories and the choice of a word.
- `Spies`: role reset, the spy-count clamp and spy marking.
- `Resolution`: the vote tally, the top-suspect scan and the winner rule.
- `Server`: the handlers and the dispatcher `Handle`.
- `Invariants`: the room invariant every handler keeps.
- `Rounds`: properties that relate several runs or definitions.
- `Scenarios`: worked three-player rounds, for every random draw.

The room invariant (`Invariants.Valid`) has four parts:

- every room is stored under its own code;
- it seats between 1 and 20 players;
- exactly one player carries the host flag, and that player's id is `hostId`;
- its votes name each voter once.

## Model

| member | source | states |
|---|---|---|
| AssocList.Put | server.js:184 | `o[k] = v` gives `k` the value `v` and leaves every other key's value alone. An existing key is overwritten in place and the key order is kept; a new key is appended. No key is ever listed twice. |
| Types.Infos | server.js:176 | `players.map(p => ({ id: p.id, name: p.name }))`, used at :176 and :240: one entry per player, in roster order, with that player's id and name. |
| Catalog.FindCategory | server.js:122 | The first built-in category with the given id, or the first category (`general`) when no id matches. The result always has words. |
| Catalog.PickWord | server.js:113-124 | A word exists exactly when the category is not `custom` or the custom list is non-empty. A custom round draws from the host's list, any other round from the category `find` selects. |
| Catalog.PickWordReaches | server.js:120-123 | Every word of the list a round draws from is the outcome of some random draw. |
| Spies.ResetRoles | server.js:130 | Every player becomes a civilian in the same seat, so no spy is left. |
| Spies.ClampSpies | server.js:132-134 | A request of at least the player count becomes `max(1, n - 1)`, which is below `n` whenever `n >= 2` and is 1 for fewer than two players. A smaller request, zero or negative included, stands. |
| Spies.MarkSpies | server.js:136-143 | Marking `k` more spies, each drawn among the players not yet spy, adds exactly `k` spies. No spy is unmarked, no seat changes, and no other role changes. |
| Spies.MarkOne | server.js:139-141 | One accepted draw turns one non-spy into a spy and adds one to the spy count. |
| Spies.AssignRoles | server.js:128-143 | After reset and marking, exactly `k` players are spies and the other `n - k` are civilians. Nobody is left without a role, and the seats are unchanged. |
| Resolution.Bump | server.js:208 | One more vote for `s` (an unset count reads as zero) raises the count of `s` by one and no other count. A new suspect is appended. The total rises by one. |
| Resolution.CountVotes | server.js:206-209 | The tally lists each suspect once, in order of first mention. Each suspect's count is the number of votes naming it, and a suspect nobody named is absent. The counts add up to the number of votes. |
| Resolution.ScanTop | server.js:212-219 | The `count > maxVotes` scan from any point ends on the first strict maximum of the tally. It ends on nothing exactly when no count is positive. |
| Resolution.TopIndex | server.js:211-219 | The top suspect is the first entry whose count no other count exceeds and every earlier count is below, so a tie keeps the entry seen first. There is none when the tally has no positive count. |
| Resolution.SpyIds | server.js:222-223 | An id is listed exactly when it is a spy's id. |
| Spies.SpyIndices | server.js:222 | `filter(p => p.role === 'spy')` keeps the spies' seats in roster order: strictly increasing, every spy's seat once, and nothing else. |
| Resolution.SpyNames | server.js:222-224 | Entry `j` is the name of the `j`-th spy in roster order, so there is one name per spy, in seat order. A name is listed exactly when some spy carries it. |
| Resolution.DecideWinner | server.js:226-233 | The civilians win exactly when the top suspect exists, has a non-empty id and is a spy; in every other case the spies win. |
| Server.CreateRoom | server.js:39-60 | The new room holds the caller alone, as host, with category `general`, one spy, no votes and no custom words. Other rooms are untouched. The caller gets `room_joined` as host, then the room gets the one-player roster and the settings `general`, 1. |
| Server.HasCustomWords | server.js:101 | `hasCustomWords` is unset exactly when no list was ever stored, and otherwise true exactly when the stored list is non-empty. |
| Server.JoinRoom | server.js:62-86 | An unknown code, a started game and a room of 20 are refused, in that order, with an error to the caller and no change. Otherwise the caller is appended as a non-host without a role, and nothing else changes. The caller gets `room_joined`, the room gets the new roster, and the caller alone gets the room's category and spy count. |
| Server.UpdateSettings | server.js:90-103 | A caller who is not the host changes nothing and hears nothing. From the host, each field given a truthy value replaces the stored one and every other field stays. The resulting settings are broadcast, with `hasCustomWords` for a non-empty list. |
| Server.SetUpRound | server.js:125-143 | The round's room is started and its votes emptied. Its word is from the selected list, and its spy count is clamped below the player count. It has exactly that many spies and every other player is a civilian. Seats, host, code and settings are kept. |
| Server.RoleMessagesDealt | server.js:145-158 | Each player is told, individually and in roster order, its own role. A spy gets the spy marker and a civilian the secret word. All are told the same first speaker, who is a player of the room. |
| Server.StartGame | server.js:105-159 | It is ignored unless the caller hosts the room. It refuses fewer than three players, then a custom category without words, with an error to the caller and no change. Otherwise only this room changes: it is set up for a round and the roles are dealt. |
| Server.StartVoting | server.js:171-177 | From the host, the votes are emptied (nothing else changes), and every player's id and name, without roles, is broadcast as a candidate. From anyone else, nothing happens. |
| Server.Verdict | server.js:205-241 | The `game_over` payload: the secret word, the spies' names, the tally of the votes, every player's id and name, and a winner that is the civilians exactly when the top suspect is a spy. |
| Server.FinishGame | server.js:201-244 | An unknown room: nothing. A room whose votes were never set: the handler throws. Otherwise the verdict is broadcast and the game is marked not started. Votes, word and roles are kept. |
| Server.Record | server.js:186-194 | After the vote is stored, the voter count and the player count are broadcast. The round is resolved on the updated votes exactly when the two counts are equal. |
| Server.SubmitVote | server.js:179-195 | An unknown room: nothing. A room whose votes were never set: the handler throws. Otherwise the caller's vote is stored, replacing only the caller's earlier vote, in its place. Progress is broadcast, and the round is resolved exactly when every player has voted. |
| Server.SafeSubmitVote | server.js:179-195 | Never crashes. A vote for a room whose votes were never set is ignored and changes nothing. Wherever `submit_vote` as written does not crash, the result is the same as its result. |
| Server.SafeFinishGame | server.js:197-244 | Never crashes. A reveal for a room whose votes were never set changes nothing. Wherever `finishGame` as written does not crash, the result is the same as its result. |
| Server.ResetLobby | server.js:246-250 | The state never changes. Only the host triggers the `return_to_lobby` broadcast. |
| Server.RoomOf | server.js:255-258 | The disconnect loop stops at the first room, in enumeration order, that seats the caller. It stops nowhere exactly when no room does. |
| Server.SeatedFound | server.js:255-258 | Because the loop visits every room code, it finds a room whenever some room seats the caller. |
| Server.PlayerIndex | server.js:257 | `findIndex` gives the first seat holding the caller's id. |
| Server.DropSeat | server.js:260 | `splice(pIndex, 1)` leaves one seat fewer: the seats before `pIndex` stay, and each later seat moves down by one. |
| Server.Depart | server.js:259-269 | The room survives a departure exactly when it had more than one player. The surviving room differs only in its roster and `hostId`. |
| Server.DepartSeats | server.js:260 | `splice` removes one seat. The others keep their order, ids, names and roles. |
| Server.DepartHost | server.js:259-269 | When the host leaves, the new first player gets the host flag and becomes `hostId`. Otherwise `hostId` and every host flag stay where they were. |
| Server.Disconnect | server.js:253-275 | A caller seated in any room is removed from the first room, in enumeration order, that seats it, and only that room changes. A room left empty is deleted. Otherwise, when the host left, the new host is told first, then the roster is broadcast. A caller seated nowhere changes nothing. |
| Server.Handle | server.js:34-276 | Each socket event goes to its handler. With the crash corrected, every event completes, whatever the caller, payload, draws and enumeration order. |
| Invariants.CreateKeepsValid | server.js:39-60 | Creating a room keeps the room invariant: the new room seats its creator alone, as its one host, under its own code. |
| Invariants.JoinKeepsValid | server.js:72-77 | Joining never seats a 21st player and never adds a second host. |
| Invariants.StartKeepsValid | server.js:125-150 | Starting a round keeps the room invariant: the seats and the host are unchanged, and the new vote record is empty. |
| Invariants.VoteKeepsValid | server.js:184-194 | Voting keeps each voter listed once and leaves the roster alone. |
| Invariants.DepartKeepsHost | server.js:259-269 | After a departure that leaves someone behind, exactly one player is host, and that player is the one recorded as `hostId`. |
| Invariants.LeaveKeepsValid | server.js:253-275 | A disconnect never leaves an empty room behind, and never a room without exactly one host. |
| Invariants.HandleKeepsValid | server.js:39-275 | Every handler, with the crash corrected, completes for any caller, payload, random draws and enumeration order, and keeps every room stored under its own code. Every room keeps 1 to 20 players, exactly one host who is `hostId`, and votes that name each voter once. |
| Rounds.FinishGameRepeatable | server.js:201-244 | Resolving a room twice broadcasts the same `game_over` twice and leaves the state as the first resolution did: resolution consumes nothing. |
| Rounds.NoSpyNamedSpiesWin | server.js:226-233 | When no vote names a spy, including when there are no votes, the spies win. |
| Rounds.MajorityCatchesSpy | server.js:206-233 | When more than half of the votes name the same spy, the civilians win, whatever the other votes are and in whatever order they came. |
| Rounds.DistinctVoters | server.js:187 | `Object.keys(room.votes).length` is the number of distinct voters. |
| Rounds.MarkerNotInCatalog | server.js:18-24 | No built-in word is the spy marker. |
| Rounds.SpyNeverSeesWord | server.js:151-158 | A civilian's `game_start` word is the secret word. A spy's equals the secret word only if the secret word is the marker itself, which no built-in category deals. |
| Rounds.TieGoesToFirst | server.js:212-233 | A one-all tie between a spy and a civilian goes to the suspect named first. With the spy named first the civilians win; the same two votes in the other order give the spies the win. |
| Rounds.NonPositiveRequestNoSpy | server.js:132-158 | A spy count of zero or less is not raised to one. The round deals no spy, and every player is told the secret word. |
| Rounds.TallyExample | server.js:206-209 | The votes `{A: X, B: Y, C: X}` tally to `{X: 2, Y: 1}`. |
| Rounds.VerdictExample | server.js:211-233 | With `X` a spy, the tally `{X: 2, Y: 1}` makes `X` the top suspect and the civilians win. |
| Scenarios.Lobby | server.js:39-86 | After "h" creates room `AB12` and "b" then "c" join, the room seats the three in that order, with "h" as host and default settings. |
| Scenarios.DealOneSpy | server.js:128-158 | For every random draw, the host's start of the three-player room deals one spy and two civilians. Exactly one of the three `game_start` messages carries the spy marker. |
| Scenarios.DealtShape | server.js:125-143 | For every draw, the dealt room seats "h", "b" and "c", with one spy and an empty vote record. |
| Scenarios.TwoVotesPending | server.js:184-194 | In a room of three with no votes, the votes of "h" and "b" each only broadcast progress, and both are kept in order. |
| Scenarios.SecondVote | server.js:184-194 | The second of three votes only broadcasts progress and is appended. |
| Scenarios.ThirdVoteCatchesSpy | server.js:179-233 | The third vote resolves the round at once. When two of the three votes name the same spy, the civilians win. |
| Scenarios.VoteStep | server.js:184-191 | A new voter who is not the last appends a vote and only broadcasts progress. |
| Scenarios.LastVote | server.js:187-194 | The vote that completes the count broadcasts progress and then `game_over`, with the winner the rule picks on the completed votes. |
| Scenarios.WinnerOfThree | server.js:206-233 | Two of three votes naming the same spy make the civilians win. |
| Scenarios.HostLeaves | server.js:253-275 | When the host leaves a room of three, the earliest remaining joiner becomes host and alone hears `you_are_host`, and then the two-player roster is broadcast. |
| Scenarios.StrayVoteCrashes | server.js:179-184 | In the lobby of a fresh room, a vote from a socket that is not seated there makes `submit_vote` throw. The guarded handler ignores it. |
| Scenarios.EarlyRevealCrashes | server.js:197-207 | In the lobby of a fresh room, `force_reveal` makes `finishGame` throw. The guarded handler leaves the room alone. |
| Scenarios.JoinUnknownCode | server.js:63-67 | Joining an unknown code is refused with an error to the caller and changes no room. |

Two points where the code and its own text disagree. The model follows
the code.

- **Ties.** The comment at server.js:226 says the spy wins by default "if wrong vote
  or tie". The scan at server.js:214-219 instead keeps the first entry with a strictly
  higher count. On a tie the first-mentioned suspect is the top suspect, and if that
  suspect is a spy the civilians win (`Rounds.TieGoesToFirst`).
- **Spy-count floor.** `Math.max(1, ...)` at server.js:133 guarantees at least one
  spy, but only for a request of at least the player count. A request of zero or less
  stands, because the host can set a negative count and only `0` is falsy. Such a
  round deals no spy (`Rounds.NonPositiveRequestNoSpy`).

More behaviour of the code, kept as written:

- `force_reveal` has no host check.
- `hasCustomWords` (server.js:101) is `undefined`, not `false`, while no list was
  ever set. An empty list supplied by the host is stored, because `[]` is truthy.
- A vote from a socket that is not a player of the room is stored and counted.
- A disconnecting socket leaves only the first room, in enumeration order, that
  seats it.
- A mid-round roster broadcast carries the players' roles.

## Findings

| source | as written | input that shows it | evidently intended | confidence | as-written member | corrected member |
|---|---|---|---|---|---|---|
| server.js:179-184 | `room.votes[socket.id] = suspectId` runs with no check that `votes` was ever set, and nothing catches the `TypeError`. | Any socket, seated or not, sends `submit_vote` for a room that has had neither `start_game` nor `start_voting`. | The vote is ignored: there is no round to vote in. | not executed; the crash follows from the code, the intended reaction is inferred | Scenarios.StrayVoteCrashes | Server.SafeSubmitVote |
| server.js:197-207 | `force_reveal` calls `finishGame`, whose `Object.values(room.votes)` throws when `votes` was never set. | Any socket sends `force_reveal` for a fresh room. | The reveal is ignored: there is no round to resolve. | not executed; the crash follows from the code, the intended reaction is inferred | Scenarios.EarlyRevealCrashes | Server.SafeFinishGame |

## Left out

- The Express static file server, the HTTP listener and the socket.io transport are
  not modelled. Joining a socket.io room is implicit in addressing events by room
  code.
- `generateRoomId` is not modelled: the new code is a parameter of `create_room`. A
  clash with an existing code replaces that room, as the code does.
- `timer_action` and the `timerSeconds` / `timerRunning` fields are not modelled.
  The handler only relays a value the server never changes.
- `Math.random()` is a parameter (`Draws`), so the model proves no uniformity. Each
  draw is reduced modulo the length of the list it indexes. The spy loop's rejected
  draws (an index already spy) change nothing and are elided. Each accepted draw
  picks among the players not yet spy, so the loop's termination is not in question
  here.
- Console logging is not modelled.
- The Arabic error texts are modelled as the tags of `Types.Error`. The spy marker
  and the catalog words are kept verbatim.
- JavaScript's enumeration order puts integer-like keys first. Keys are modelled
  in insertion order, which assumes they are not integer-like. This holds for
  voters, which are socket ids. It holds for suspects only while the client sends
  one of the ids offered in `voting_phase` (server.js:176), because `suspectId` is
  stored unchecked. An integer-like `suspectId` such as `"5"` would come first in
  the tally (server.js:214) and so change the tie-break and possibly the winner.
  The model does not cover that case. Inherited prototype keys are not modelled.
- Payload fields of the wrong type are not modelled: a string `spiesCount`, a
  non-array `customWords`, a missing `suspectId`. Categories and suspects are
  strings, and the spy count is an integer.
- The only exception modelled is the `TypeError` of reading `votes` before it is
  set (`Outcome.Threw`). It ends the process, and the model says nothing past it.
  The invariant is proved for the corrected dispatcher, which never throws.
- An event sent without a payload object is not modelled. Destructuring
  `undefined` in the handler's parameter list throws a `TypeError`, which also
  ends the process. This affects `create_room` (server.js:39) and every handler
  that reads `roomCode` (server.js:62, :90, :105, :171, :179, :197, :246). Every
  modelled action carries its payload.
- Server.Depart: its own contract states only when the room survives and that only
  the roster and `hostId` change. The seat and host facts are stated by
  `Server.DepartSeats` and `Server.DepartHost`.
- Concurrency is not modelled. Each handler is one atomic step, as in the
  single-threaded event loop.

=== FILE: assoc_list.dfy ===
/** A JavaScript object keyed by strings, as an ordered association list.

    Assigning `o[k] = v` overwrites the value in place when `k` is already a key and
    appends the pair otherwise, so `Object.keys` / `Object.entries` enumerate keys in
    the order they were first assigned. (JavaScript lists integer-like keys first;
    socket ids are never integer-like, and that ordering is not modelled.) */
module AssocList {
  import opened Types

  /** The keys, in enumeration order. */
  function Keys<V>(al: seq<(string, V)>): (ks: seq<string>)
    ensures |ks| == |al|
    ensures forall i :: 0 <= i < |al| ==> ks[i] == al[i].0
  {
    seq(|al|, i requires 0 <= i < |al| => al[i].0)
  }

  /** No key is listed twice, as in any JavaScript object. */
  ghost predicate NoDup(s: seq<string>)
  {
    forall i, j :: 0 <= i < j < |s| ==> s[i] != s[j]
  }

  /** The position of the first pair whose key is `k`. */
  function IndexOf<V>(al: seq<(string, V)>, k: string): (i: nat)
    requires k in Keys(al)
    ensures i < |al| && al[i].0 == k
    ensures forall j :: 0 <= j < i ==> al[j].0 != k
  {
    if al[0].0 == k then 0
    else
      assert k in Keys(al[1..]) by {
        var j :| 0 <= j < |al| && Keys(al)[j] == k;
        assert Keys(al[1..])[j - 1] == k;
      }
      1 + IndexOf(al[1..], k)
  }

  /** `o[k]`: the value of `k`, or nothing when `k` is not a key. */
  function Lookup<V>(al: seq<(string, V)>, k: string): (r: Option<V>)
    ensures r.Some? <==> k in Keys(al)
  {
    if k in Keys(al) then Some(al[IndexOf(al, k)].1) else None
  }

  /** `o[k] = v`: overwrite the value of `k` in place, or append `(k, v)`. */
  function Put<V>(al: seq<(string, V)>, k: string, v: V): (r: seq<(string, V)>)
    ensures Lookup(r, k) == Some(v)
    ensures forall k' :: k' != k ==> Lookup(r, k') == Lookup(al, k')
    ensures k in Keys(al) ==> r == al[IndexOf(al, k) := (k, v)] && Keys(r) == Keys(al)
    ensures k !in Keys(al) ==> r == al + [(k, v)]
    ensures NoDup(Keys(al)) ==> NoDup(Keys(r))
  {
    if k in Keys(al) then
      var i := IndexOf(al, k);
      var r := al[i := (k, v)];
      assert Keys(r) == Keys(al);
      assert IndexOf(r, k) == i;
      forall k' | k' != k
        ensures Lookup(r, k') == Lookup(al, k')
      {
        if k' in Keys(al) {
          assert IndexOf(r, k') == IndexOf(al, k');
        }
      }
      r
    else
      var r := al + [(k, v)];
      assert Keys(r) == Keys(al) + [k];
      assert IndexOf(r, k) == |al|;
      forall k' | k' != k
        ensures Lookup(r, k') == Lookup(al, k')
      {
        if k' in Keys(al) {
          var b := IndexOf(al, k');
          assert r[b] == al[b];
          var a := IndexOf(r, k');
          assert a < |al| ==> r[a] == al[a];
        }
      }
      r
  }
}

=== FILE: catalog.dfy ===
/** The built-in word catalog and the choice of a round's secret word. */
module Catalog {
  import opened Types

  datatype Category = Category(id: string, name: string, words: seq<string>)

  /** The category id under which the host's own word list is used. */
  const Custom: string := "custom"

  /** The five built-in categories, in the server's order; the first is the fallback
      for an unknown category id. */
  const Categories: seq<Category> := [
    Category("general", "عام", ["مدرسة", "جامعة", "مطار", "مستشفى", "سينما", "حديقة", "مطعم", "سوق", "ملعب", "مكتبة", "مسجد", "فندق"]),
    Category("animals", "حيوانات", ["أسد", "نمر", "فيل", "زرافة", "قرد", "كلب", "قطة", "حصان", "جمل", "صقر", "نسر", "بطريق"]),
    Category("food", "أكل", ["بيتزا", "برجر", "شاورما", "كبسة", "سوشي", "باستا", "فلافل", "سمك", "ستيك", "سلطة", "شوربة"]),
    Category("objects", "أشياء", ["قلم", "كتاب", "جوال", "لابتوب", "ساعة", "نظارة", "مفتاح", "شنطة", "كرسي", "طاولة", "سيارة"]),
    Category("tech", "تقنية", ["ايفون", "اندرويد", "ويندوز", "فيسبوك", "تويتر", "انستقرام", "واتساب", "يوتيوب", "جوجل", "تيك توك"])
  ]

  /** `categories.find(c => c.id === id) || categories[0]`: the first category with
      the given id, falling back to the first category. */
  function FindCategory(id: string): (c: Category)
    ensures c in Categories
    ensures (exists i :: 0 <= i < |Categories| && Categories[i].id == id) ==> c.id == id
    ensures (forall i :: 0 <= i < |Categories| ==> Categories[i].id != id) ==> c == Categories[0]
    ensures |c.words| > 0
  {
    FindFrom(id, 0)
  }

  function FindFrom(id: string, i: nat): (c: Category)
    requires i <= |Categories|
    ensures c in Categories && |c.words| > 0
    ensures (exists j :: i <= j < |Categories| && Categories[j].id == id) ==> c.id == id
    ensures (forall j :: i <= j < |Categories| ==> Categories[j].id != id) ==> c == Categories[0]
    decreases |Categories| - i
  {
    if i == |Categories| then Categories[0]
    else if Categories[i].id == id then Categories[i]
    else FindFrom(id, i + 1)
  }

  /** True when a round can draw a word: the custom category needs a non-empty word
      list; every other id draws from the catalog. */
  predicate HasWords(category: string, customWords: Option<seq<string>>)
  {
    category != Custom || (customWords.Some? && |customWords.value| > 0)
  }

  /** The secret word of a round. `draw` stands for `Math.random()`: the word taken
      is the one at index `draw` modulo the length of the list drawn from. */
  function PickWord(category: string, customWords: Option<seq<string>>, draw: nat): (r: Option<string>)
    ensures r.Some? <==> HasWords(category, customWords)
    ensures r.Some? && category == Custom ==> r.value in customWords.value
    ensures r.Some? && category != Custom ==> r.value in FindCategory(category).words
  {
    if category == Custom then
      if customWords.None? || |customWords.value| == 0 then None
      else Some(customWords.value[draw % |customWords.value|])
    else
      var words := FindCategory(category).words;
      Some(words[draw % |words|])
  }

  /** The list a round draws its word from. */
  function WordList(category: string, customWords: Option<seq<string>>): seq<string>
  {
    if category == Custom then (if customWords.Some? then customWords.value else [])
    else FindCategory(category).words
  }

  lemma SmallMod(d: nat, n: nat)
    requires d < n
    ensures d % n == d
  {
  }

  /** No word of the list is out of reach: every one is the draw of some random value. */
  lemma PickWordReaches(category: string, customWords: Option<seq<string>>, w: string)
    requires w in WordList(category, customWords)
    ensures exists d: nat :: PickWord(category, customWords, d) == Some(w)
  {
    if category == Custom {
      var words := customWords.value;
      var d :| 0 <= d < |words| && words[d] == w;
      SmallMod(d, |words|);
      assert PickWord(category, customWords, d) == Some(w);
    } else {
      var words := FindCategory(category).words;
      var d :| 0 <= d < |words| && words[d] == w;
      SmallMod(d, |words|);
      assert PickWord(category, customWords, d) == Some(words[d]);
    }
  }
}

=== FILE: invariants.dfy ===
/** The invariant every live room keeps under every handler: it is stored under its
    own code, seats 1 to 20 players, exactly one of them flagged host, that one being
    the recorded host, and its votes name each voter once. */
module Invariants {
  import opened Types
  import opened AssocList
  import opened Spies
  import opened Server

  /** Seat `i` holds the only player flagged host. */
  ghost predicate HostAt(ps: seq<Player>, i: int)
  {
    0 <= i < |ps| && ps[i].isHost && forall j :: 0 <= j < |ps| && j != i ==> !ps[j].isHost
  }

  /** Exactly one player is flagged host, and its id is the room's `hostId`. */
  ghost predicate OneHost(r: Room)
  {
    exists i :: HostAt(r.players, i) && r.players[i].id == r.hostId
  }

  ghost predicate GoodRoom(code: string, r: Room)
  {
    && r.code == code
    && 1 <= |r.players| <= MaxPlayers
    && OneHost(r)
    && (r.votes.Some? ==> NoDup(Keys(r.votes.value)))
  }

  /** Every room of the registry is good; in particular no room is empty. */
  ghost predicate Valid(rooms: Rooms)
  {
    forall c :: c in rooms ==> GoodRoom(c, rooms[c])
  }

  /** A room whose seats keep their ids and host flags keeps its host. */
  lemma SeatsKeepHost(r: Room, r': Room)
    requires OneHost(r)
    requires SameSeats(r.players, r'.players) && r'.hostId == r.hostId
    ensures OneHost(r')
  {
    var h :| HostAt(r.players, h) && r.players[h].id == r.hostId;
    assert HostAt(r'.players, h);
  }

  lemma CreateKeepsValid(rooms: Rooms, caller: string, code: string, name: string)
    requires Valid(rooms)
    ensures Valid(CreateRoom(rooms, caller, code, name).rooms)
  {
    var r := CreateRoom(rooms, caller, code, name).rooms[code];
    assert HostAt(r.players, 0);
  }

  lemma JoinKeepsValid(rooms: Rooms, caller: string, code: string, name: string)
    requires Valid(rooms)
    ensures Valid(JoinRoom(rooms, caller, code, name).rooms)
  {
    if JoinAdmits(rooms, code) {
      var r := rooms[code];
      var r' := JoinRoom(rooms, caller, code, name).rooms[code];
      var h :| HostAt(r.players, h) && r.players[h].id == r.hostId;
      assert r'.players[h] == r.players[h];
      assert HostAt(r'.players, h);
    }
  }

  lemma SettingsKeepValid(rooms: Rooms, caller: string, code: string,
                          category: string, spies: int, words: Option<seq<string>>)
    requires Valid(rooms)
    ensures Valid(UpdateSettings(rooms, caller, code, category, spies, words).rooms)
  {
    if IsHost(rooms, code, caller) {
      var r' := UpdateSettings(rooms, caller, code, category, spies, words).rooms[code];
      SeatsKeepHost(rooms[code], r');
    }
  }

  lemma StartKeepsValid(rooms: Rooms, caller: string, code: string, draws: Draws)
    requires Valid(rooms)
    ensures Valid(StartGame(rooms, caller, code, draws).rooms)
  {
    var o := StartGame(rooms, caller, code, draws);
    if IsHost(rooms, code, caller) && |rooms[code].players| >= MinPlayers
       && Catalog.HasWords(rooms[code].category, rooms[code].customWords) {
      var r := rooms[code];
      var r' := o.rooms[code];
      assert RoundSetUp(r, r');
      assert o.rooms == rooms[code := r'];
      SeatsKeepHost(r, r');
      ReplaceKeepsValid(rooms, code, r');
    }
  }

  lemma VotingKeepsValid(rooms: Rooms, caller: string, code: string)
    requires Valid(rooms)
    ensures Valid(StartVoting(rooms, caller, code).rooms)
  {
    if IsHost(rooms, code, caller) {
      SeatsKeepHost(rooms[code], StartVoting(rooms, caller, code).rooms[code]);
    }
  }

  lemma FinishKeepsValid(rooms: Rooms, code: string)
    requires Valid(rooms)
    requires FinishGame(rooms, code).Next?
    ensures Valid(FinishGame(rooms, code).rooms)
  {
    if code in rooms {
      SeatsKeepHost(rooms[code], FinishGame(rooms, code).rooms[code]);
    }
  }

  lemma VoteKeepsValid(rooms: Rooms, caller: string, code: string, suspect: string)
    requires Valid(rooms)
    requires SubmitVote(rooms, caller, code, suspect).Next?
    ensures Valid(SubmitVote(rooms, caller, code, suspect).rooms)
  {
    var o := SubmitVote(rooms, caller, code, suspect);
    if code in rooms {
      var r := rooms[code];
      var nv := Put(r.votes.value, caller, suspect);
      var x := if |nv| == |r.players| then r.(votes := Some(nv), gameStarted := false) else r.(votes := Some(nv));
      assert o.rooms == rooms[code := x];
      SeatsKeepHost(r, x);
      ReplaceKeepsValid(rooms, code, x);
    }
  }

  /** Replacing one room by a good room keeps the registry valid. */
  lemma ReplaceKeepsValid(rooms: Rooms, code: string, x: Room)
    requires Valid(rooms) && GoodRoom(code, x)
    ensures Valid(rooms[code := x])
  {
    var m := rooms[code := x];
    forall c | c in m
      ensures GoodRoom(c, m[c])
    {
      if c != code {
        assert m[c] == rooms[c];
      }
    }
  }

  /** The room left behind by a departure keeps exactly one host, the recorded one. */
  lemma DepartKeepsHost(room: Room, i: nat)
    requires i < |room.players| && OneHost(room)
    requires Depart(room, i).Some?
    ensures OneHost(Depart(room, i).value)
  {
    var ps := room.players;
    var r' := Depart(room, i).value;
    var ps' := r'.players;
    var h :| HostAt(ps, h) && ps[h].id == room.hostId;
    DepartSeats(room, i);
    DepartHost(room, i);
    var h' := if ps[i].isHost then 0 else if h < i then h else h - 1;
    forall j | 1 <= j < |ps'| && j != h'
      ensures !ps'[j].isHost
    {
      var k := if j < i then j else j + 1;
      assert ps'[j].isHost == ps[k].isHost && k != h;
    }
    if !ps[i].isHost && h' == 0 {
      assert ps'[0].isHost;
    }
    assert HostAt(ps', h');
  }

  lemma LeaveKeepsValid(rooms: Rooms, caller: string, order: seq<string>)
    requires Valid(rooms) && forall c :: c in rooms ==> c in order
    ensures Valid(Disconnect(rooms, caller, order).rooms)
  {
    match RoomOf(rooms, caller, order)
    case None =>
    case Some(code) =>
      var i := PlayerIndex(rooms[code].players, caller);
      if Depart(rooms[code], i).Some? {
        DepartKeepsHost(rooms[code], i);
      }
  }

  /** Every handler, whatever the caller, the payload, the random draws and the
      enumeration order, completes and keeps the registry valid: no room is ever
      empty, and each room has exactly one host, the player whose id is its `hostId`. */
  lemma HandleKeepsValid(rooms: Rooms, caller: string, a: Action, draws: Draws, order: seq<string>)
    requires Valid(rooms) && forall c :: c in rooms ==> c in order
    ensures Handle(rooms, caller, a, draws, order).Next?
    ensures Valid(Handle(rooms, caller, a, draws, order).rooms)
  {
    match a
    case Create(code, name) => CreateKeepsValid(rooms, caller, code, name);
    case Join(code, name) => JoinKeepsValid(rooms, caller, code, name);
    case ChangeSettings(code, category, spies, words) => SettingsKeepValid(rooms, caller, code, category, spies, words);
    case Start(code) => StartKeepsValid(rooms, caller, code, draws);
    case OpenVoting(code) => VotingKeepsValid(rooms, caller, code);
    case Vote(code, suspect) =>
      if SubmitVote(rooms, caller, code, suspect).Next? {
        VoteKeepsValid(rooms, caller, code, suspect);
      }
    case Reveal(code) =>
      if FinishGame(rooms, code).Next? {
        FinishKeepsValid(rooms, code);
      }
    case BackToLobby(code) =>
    case Leave => LeaveKeepsValid(rooms, caller, order);
  }
}

=== FILE: resolution.dfy ===
/** The resolution algorithm of a round: counting the votes per suspect, picking the
    top suspect, and deciding the winner. */
module Resolution {
  import opened Types
  import opened AssocList
  import opened Spies

  /** The suspects named, one per vote, in the order of the votes. */
  function Suspects(votes: Votes): (s: seq<string>)
    ensures |s| == |votes|
    ensures forall i :: 0 <= i < |votes| ==> s[i] == votes[i].1
  {
    seq(|votes|, i requires 0 <= i < |votes| => votes[i].1)
  }

  /** The number of votes naming `s`. */
  function Occurrences(votes: Votes, s: string): nat
  {
    if |votes| == 0 then 0
    else Occurrences(votes[..|votes| - 1], s) + (if votes[|votes| - 1].1 == s then 1 else 0)
  }

  /** The distinct elements of `s`, in order of first appearance. */
  function Dedup(s: seq<string>): seq<string>
  {
    if |s| == 0 then []
    else
      var d := Dedup(s[..|s| - 1]);
      if s[|s| - 1] in d then d else d + [s[|s| - 1]]
  }

  /** The sum of the counts of a tally. */
  function Total(t: Tally): nat
  {
    if |t| == 0 then 0 else t[0].1 + Total(t[1..])
  }

  /** The count stored for `s`, zero when `s` has none. */
  function CountOf(t: Tally, s: string): nat
  {
    match Lookup(t, s)
    case Some(n) => n
    case None => 0
  }

  /** `voteCounts[s] = (voteCounts[s] || 0) + 1`: one more vote for `s`. */
  function Bump(t: Tally, s: string): (r: Tally)
    ensures Lookup(r, s) == Some(CountOf(t, s) + 1)
    ensures forall s' :: s' != s ==> Lookup(r, s') == Lookup(t, s')
    ensures Keys(r) == if s in Keys(t) then Keys(t) else Keys(t) + [s]
    ensures NoDup(Keys(t)) ==> NoDup(Keys(r))
    ensures Total(r) == Total(t) + 1
  {
    PutTotal(t, s, CountOf(t, s) + 1);
    Put(t, s, CountOf(t, s) + 1)
  }

  /** Storing `n` for `s` changes the total by `n` less the count `s` had. */
  lemma PutTotal(t: Tally, s: string, n: nat)
    ensures Total(Put(t, s, n)) + CountOf(t, s) == Total(t) + n
  {
    if s in Keys(t) {
      TotalOverwrite(t, IndexOf(t, s), n);
    } else {
      TotalAppend(t, (s, n));
    }
  }

  lemma {:induction false} TotalAppend(t: Tally, e: (string, nat))
    ensures Total(t + [e]) == Total(t) + e.1
    decreases |t|
  {
    if |t| > 0 {
      assert (t + [e])[1..] == t[1..] + [e];
      TotalAppend(t[1..], e);
    }
  }

  lemma {:induction false} TotalOverwrite(t: Tally, i: nat, n: nat)
    requires i < |t|
    ensures Total(t[i := (t[i].0, n)]) + t[i].1 == Total(t) + n
    decreases i
  {
    if i > 0 {
      assert t[i := (t[i].0, n)][1..] == t[1..][i - 1 := (t[i].0, n)];
      TotalOverwrite(t[1..], i - 1, n);
    }
  }

  /** The `voteCounts` object of the resolution: the votes folded in order, each
      adding one to the count of its suspect. Each suspect is listed once, in the order
      it first appears among the votes, with the number of votes naming it; the counts
      add up to the number of votes. */
  function CountVotes(votes: Votes): (t: Tally)
    ensures NoDup(Keys(t))
    ensures Keys(t) == Dedup(Suspects(votes))
    ensures forall s :: Lookup(t, s) == if Occurrences(votes, s) == 0 then None else Some(Occurrences(votes, s))
    ensures Total(t) == |votes|
    decreases |votes|
  {
    if |votes| == 0 then []
    else
      var t := CountVotes(votes[..|votes| - 1]);
      CountStep(votes, t);
      Bump(t, votes[|votes| - 1].1)
  }

  /** One more vote: bumping the tally of all votes but the last, by the last vote's
      suspect, gives the tally of all votes. */
  lemma CountStep(votes: Votes, t: Tally)
    requires |votes| > 0
    requires var prefix := votes[..|votes| - 1];
             && NoDup(Keys(t))
             && Keys(t) == Dedup(Suspects(prefix))
             && (forall s :: Lookup(t, s) == if Occurrences(prefix, s) == 0 then None else Some(Occurrences(prefix, s)))
             && Total(t) == |prefix|
    ensures var r := Bump(t, votes[|votes| - 1].1);
            && NoDup(Keys(r))
            && Keys(r) == Dedup(Suspects(votes))
            && (forall s :: Lookup(r, s) == if Occurrences(votes, s) == 0 then None else Some(Occurrences(votes, s)))
            && Total(r) == |votes|
  {
    var prefix := votes[..|votes| - 1];
    var last := votes[|votes| - 1].1;
    var r := Bump(t, last);
    assert Suspects(votes)[..|votes| - 1] == Suspects(prefix);
    forall s
      ensures Lookup(r, s) == if Occurrences(votes, s) == 0 then None else Some(Occurrences(votes, s))
    {
      assert Occurrences(votes, s) == Occurrences(prefix, s) + (if last == s then 1 else 0);
    }
  }

  /** Index `b` holds the first strict maximum among the first `n` counts of `t`: its
      count is positive, no count below `n` exceeds it, and every count before it is
      smaller. */
  ghost predicate FirstMaxBelow(t: Tally, b: nat, n: nat)
    requires n <= |t|
  {
    && b < n
    && t[b].1 > 0
    && (forall j :: 0 <= j < n ==> t[j].1 <= t[b].1)
    && (forall j :: 0 <= j < b ==> t[j].1 < t[b].1)
  }

  ghost predicate IsFirstMax(t: Tally, b: nat)
  {
    b < |t| && FirstMaxBelow(t, b, |t|)
  }

  /** The scan `for ([id, count] of entries) if (count > maxVotes) ...` from entry
      `i` on, with `best` the entry kept so far. */
  function ScanTop(t: Tally, i: nat, best: Option<nat>): (r: Option<nat>)
    requires i <= |t|
    requires best.None? ==> forall j :: 0 <= j < i ==> t[j].1 == 0
    requires best.Some? ==> FirstMaxBelow(t, best.value, i)
    ensures r.None? <==> forall j :: 0 <= j < |t| ==> t[j].1 == 0
    ensures r.Some? ==> IsFirstMax(t, r.value)
    decreases |t| - i
  {
    if i == |t| then best
    else
      var maxVotes := if best.Some? then t[best.value].1 else 0;
      if t[i].1 > maxVotes then ScanTop(t, i + 1, Some(i))
      else ScanTop(t, i + 1, best)
  }

  /** The top suspect's entry: the first entry whose count is a strict maximum, so a
      tie keeps the entry seen first; none when no count is positive. */
  function TopIndex(t: Tally): (r: Option<nat>)
    ensures r.None? <==> forall j :: 0 <= j < |t| ==> t[j].1 == 0
    ensures r.Some? ==> IsFirstMax(t, r.value)
  {
    ScanTop(t, 0, None)
  }

  /** At most one entry is the first strict maximum. */
  lemma FirstMaxUnique(t: Tally, a: nat, b: nat)
    requires IsFirstMax(t, a) && IsFirstMax(t, b)
    ensures a == b
  {
  }

  function TopSuspect(t: Tally): Option<string>
  {
    match TopIndex(t)
    case Some(i) => Some(t[i].0)
    case None => None
  }

  /** True when `id` is the id of a spy among `ps`. */
  predicate IsSpyId(ps: seq<Player>, id: string)
  {
    exists i :: 0 <= i < |ps| && ps[i].role == Spy && ps[i].id == id
  }

  /** `players.filter(p => p.role === 'spy').map(p => p.id)`. */
  function SpyIds(ps: seq<Player>): (r: seq<string>)
    ensures forall id :: id in r <==> IsSpyId(ps, id)
  {
    if |ps| == 0 then []
    else
      var rest := SpyIds(ps[1..]);
      assert forall id :: IsSpyId(ps[1..], id) ==> IsSpyId(ps, id) by {
        forall id | IsSpyId(ps[1..], id) ensures IsSpyId(ps, id) {
          var i :| 0 <= i < |ps[1..]| && ps[1..][i].role == Spy && ps[1..][i].id == id;
          assert ps[i + 1] == ps[1..][i];
        }
      }
      assert forall id :: IsSpyId(ps, id) && id != ps[0].id ==> IsSpyId(ps[1..], id) by {
        forall id | IsSpyId(ps, id) && id != ps[0].id ensures IsSpyId(ps[1..], id) {
          var i :| 0 <= i < |ps| && ps[i].role == Spy && ps[i].id == id;
          assert i > 0 && ps[1..][i - 1] == ps[i];
        }
      }
      if ps[0].role == Spy then [ps[0].id] + rest else rest
  }

  /** `players.filter(p => p.role === 'spy').map(p => p.name)`: one name per spy, in
      roster order, and only spies' names. */
  function SpyNames(ps: seq<Player>): (r: seq<string>)
    ensures |r| == |SpyIndices(ps)| == RoleCount(ps, Spy)
    ensures forall j :: 0 <= j < |r| ==> r[j] == ps[SpyIndices(ps)[j]].name
    ensures forall x :: x in r <==> exists i :: 0 <= i < |ps| && ps[i].role == Spy && ps[i].name == x
  {
    if |ps| == 0 then []
    else
      var n := |ps| - 1;
      var prefix := ps[..n];
      var rest := SpyNames(prefix);
      var idx := SpyIndices(prefix);
      assert forall j :: 0 <= j < |rest| ==> ps[idx[j]] == prefix[idx[j]];
      var r := rest + (if ps[n].role == Spy then [ps[n].name] else []);
      NamesOfSpies(ps, r);
      r
  }

  /** Names listed seat by seat along the spy indices are exactly the spies' names. */
  lemma NamesOfSpies(ps: seq<Player>, r: seq<string>)
    requires |r| == |SpyIndices(ps)|
    requires forall j :: 0 <= j < |r| ==> r[j] == ps[SpyIndices(ps)[j]].name
    ensures forall x :: x in r <==> exists i :: 0 <= i < |ps| && ps[i].role == Spy && ps[i].name == x
  {
    var idx := SpyIndices(ps);
    forall x | x in r
      ensures exists i :: 0 <= i < |ps| && ps[i].role == Spy && ps[i].name == x
    {
      var j :| 0 <= j < |r| && r[j] == x;
      assert ps[idx[j]].role == Spy;
    }
    forall x | exists i :: 0 <= i < |ps| && ps[i].role == Spy && ps[i].name == x
      ensures x in r
    {
      var i :| 0 <= i < |ps| && ps[i].role == Spy && ps[i].name == x;
      assert i in idx;
      var j :| 0 <= j < |idx| && idx[j] == i;
      assert r[j] == x;
    }
  }

  /** The round is won by the civilians exactly when the first strict maximum of the
      tally names a spy (by a non-empty id, the truthiness test of the source). */
  ghost predicate SpyCaught(ps: seq<Player>, t: Tally)
  {
    exists b: nat :: IsFirstMax(t, b) && t[b].0 != "" && IsSpyId(ps, t[b].0)
  }

  lemma SpyCaughtAt(ps: seq<Player>, t: Tally, b: nat)
    requires IsFirstMax(t, b)
    ensures SpyCaught(ps, t) <==> t[b].0 != "" && IsSpyId(ps, t[b].0)
  {
    if SpyCaught(ps, t) {
      var b': nat :| IsFirstMax(t, b') && t[b'].0 != "" && IsSpyId(ps, t[b'].0);
      FirstMaxUnique(t, b, b');
    }
  }

  /** The winner rule: civilians win when the top suspect is a spy; a top suspect who
      is a civilian, or no votes at all, leaves the win to the spies. */
  function DecideWinner(ps: seq<Player>, t: Tally): (w: Winner)
    ensures w == CiviliansWin <==> SpyCaught(ps, t)
  {
    match TopSuspect(t)
    case Some(s) =>
      SpyCaughtAt(ps, t, TopIndex(t).value);
      if s != "" && s in SpyIds(ps) then CiviliansWin else SpyWins
    case None => SpyWins
  }
}

=== FILE: rounds.dfy ===
/** Properties that relate several handler runs or several definitions: resolution is
    repeatable, the winner rule on votes that name no spy, the vote count, the spy
    marker, and worked rounds. */
module Rounds {
  import opened Types
  import opened AssocList
  import opened Catalog
  import opened Spies
  import opened Resolution
  import opened Server

  /** Resolving a round does not consume it: a second resolution of the same room, on
      the state the first one left, broadcasts the same `game_over` and changes nothing. */
  lemma FinishGameRepeatable(rooms: Rooms, code: string)
    requires FinishGame(rooms, code).Next?
    ensures var o := FinishGame(rooms, code);
            FinishGame(o.rooms, code) == o
  {
    var o := FinishGame(rooms, code);
    if code in rooms {
      var r := rooms[code];
      var r' := o.rooms[code];
      assert r' == r.(gameStarted := false);
      assert o.rooms[code := r'.(gameStarted := false)] == o.rooms;
    }
  }

  /** Every element of `Dedup(s)` is an element of `s`. */
  lemma {:induction false} DedupWithin(s: seq<string>, x: string)
    requires x in Dedup(s)
    ensures x in s
    decreases |s|
  {
    var d := Dedup(s[..|s| - 1]);
    if x in d {
      DedupWithin(s[..|s| - 1], x);
    }
  }

  /** When no vote names a spy (every vote for a civilian, or no vote at all), the spies
      win. */
  lemma NoSpyNamedSpiesWin(ps: seq<Player>, votes: Votes)
    requires forall i :: 0 <= i < |votes| ==> !IsSpyId(ps, votes[i].1)
    ensures DecideWinner(ps, CountVotes(votes)) == SpyWins
  {
    var t := CountVotes(votes);
    forall b: nat | IsFirstMax(t, b)
      ensures !IsSpyId(ps, t[b].0)
    {
      assert t[b].0 in Keys(t);
      DedupWithin(Suspects(votes), t[b].0);
    }
    assert !SpyCaught(ps, t);
  }

  /** The key set of an association list. */
  function KeySet<V>(al: seq<(string, V)>): (ks: set<string>)
    ensures forall k :: k in ks <==> k in Keys(al)
  {
    set i | 0 <= i < |al| :: al[i].0
  }

  /** With each voter listed once, `Object.keys(votes).length`, the count of the vote
      broadcast, is the number of distinct voters. */
  lemma {:induction false} DistinctVoters(votes: Votes)
    requires NoDup(Keys(votes))
    ensures |votes| == |KeySet(votes)|
    decreases |votes|
  {
    if |votes| > 0 {
      var prefix := votes[..|votes| - 1];
      var last := votes[|votes| - 1].0;
      assert NoDup(Keys(prefix)) by {
        assert forall i :: 0 <= i < |prefix| ==> Keys(prefix)[i] == Keys(votes)[i];
      }
      DistinctVoters(prefix);
      var ks := KeySet(votes);
      var kp := KeySet(prefix);
      forall k | k in ks
        ensures k in kp || k == last
      {
        var i :| 0 <= i < |votes| && votes[i].0 == k;
        if i < |prefix| {
          assert prefix[i].0 == k;
        }
      }
      forall k | k in kp
        ensures k in ks
      {
        var i :| 0 <= i < |prefix| && prefix[i].0 == k;
        assert votes[i].0 == k;
      }
      assert ks == kp + {last};
      forall j | 0 <= j < |prefix|
        ensures prefix[j].0 != last
      {
        assert Keys(votes)[j] != Keys(votes)[|votes| - 1];
      }
    }
  }

  /** No word of the built-in catalog is the spy marker. */
  lemma MarkerNotInCatalog(c: Category)
    requires c in Categories
    ensures SpyMarker !in c.words
  {
  }

  /** A spy's `game_start` word differs from the secret word exactly when the secret
      word is not the spy marker itself, which a built-in category never draws (a custom
      list can hold it). A civilian's word is the secret word. */
  lemma SpyNeverSeesWord(rooms: Rooms, caller: string, code: string, draws: Draws, i: nat)
    requires IsHost(rooms, code, caller) && |rooms[code].players| >= MinPlayers
    requires HasWords(rooms[code].category, rooms[code].customWords)
    requires i < |rooms[code].players|
    ensures var o := StartGame(rooms, caller, code, draws);
            var r' := o.rooms[code];
            && (r'.players[i].role == Civilian ==> o.events[i].msg.word == r'.secretWord)
            && (r'.players[i].role == Spy ==> (o.events[i].msg.word == r'.secretWord <==> r'.secretWord == SpyMarker))
            && (rooms[code].category != Custom ==> r'.secretWord != SpyMarker)
  {
    var o := StartGame(rooms, caller, code, draws);
    var r' := o.rooms[code];
    assert RoundSetUp(rooms[code], r');
    if rooms[code].category != Custom {
      MarkerNotInCatalog(FindCategory(rooms[code].category));
    }
  }

  /** One vote tallies to one count for its suspect. */
  lemma TallyOne(a: string, x: string)
    ensures CountVotes([(a, x)]) == [(x, 1)]
  {
    var v: Votes := [(a, x)];
    assert v[..0] == [];
    assert Put([], x, 1) == [] + [(x, 1)];
  }

  /** Two votes for different suspects tally to one count each, in vote order. */
  lemma TallyTwo(a: string, x: string, b: string, y: string)
    requires x != y
    ensures CountVotes([(a, x), (b, y)]) == [(x, 1), (y, 1)]
  {
    var v: Votes := [(a, x), (b, y)];
    var t1: Tally := [(x, 1)];
    assert v[..1] == [(a, x)];
    TallyOne(a, x);
    assert Keys(t1) == [x];
    assert CountOf(t1, y) == 0;
  }

  /** The tally of the votes `{A: X, B: Y, C: X}` is `{X: 2, Y: 1}`: the suspects in
      order of first mention, with their counts. */
  lemma TallyExample()
    ensures CountVotes([("A", "X"), ("B", "Y"), ("C", "X")]) == [("X", 2), ("Y", 1)]
  {
    var v: Votes := [("A", "X"), ("B", "Y"), ("C", "X")];
    var t2: Tally := [("X", 1), ("Y", 1)];
    assert v[..2] == [("A", "X"), ("B", "Y")];
    TallyTwo("A", "X", "B", "Y");
    assert CountVotes(v) == Bump(t2, "X");
    assert Keys(t2)[0] == "X";
    assert IndexOf(t2, "X") == 0;
    assert CountOf(t2, "X") == 1;
    assert Put(t2, "X", 2) == t2[0 := ("X", 2)];
  }

  /** A one-all tie between a spy and a civilian goes to whoever was named first: with
      the spy named first the civilians win, and the same two votes in the other order
      give the spies the win. A tie is not left to the spies. */
  lemma TieGoesToFirst(spy: Player, civ: Player, a: string, b: string)
    requires spy.role == Spy && civ.role != Spy && spy.id != "" && spy.id != civ.id
    ensures DecideWinner([spy, civ], CountVotes([(a, spy.id), (b, civ.id)])) == CiviliansWin
    ensures DecideWinner([spy, civ], CountVotes([(a, civ.id), (b, spy.id)])) == SpyWins
  {
    var ps := [spy, civ];
    TallyTwo(a, spy.id, b, civ.id);
    assert IsFirstMax([(spy.id, 1), (civ.id, 1)], 0);
    assert IsSpyId(ps, spy.id) by {
      assert ps[0].role == Spy && ps[0].id == spy.id;
    }
    TallyTwo(a, civ.id, b, spy.id);
    var t: Tally := [(civ.id, 1), (spy.id, 1)];
    assert IsFirstMax(t, 0);
    assert !IsSpyId(ps, civ.id);
  }

  /** A spy count of zero or less, which the host can set since only `0` is falsy, is
      not raised to one: the round deals no spy, and every player is told the secret
      word. */
  lemma NonPositiveRequestNoSpy(rooms: Rooms, caller: string, code: string, draws: Draws)
    requires IsHost(rooms, code, caller) && |rooms[code].players| >= MinPlayers
    requires HasWords(rooms[code].category, rooms[code].customWords)
    requires rooms[code].spiesCount <= 0
    ensures var o := StartGame(rooms, caller, code, draws);
            && RoleCount(o.rooms[code].players, Spy) == 0
            && forall i :: 0 <= i < |o.events| ==> o.events[i].msg.word == o.rooms[code].secretWord
  {
    var o := StartGame(rooms, caller, code, draws);
    var r' := o.rooms[code];
    assert RoundSetUp(rooms[code], r');
    NoneCounted(r'.players);
  }

  /** With `X` a spy, the tally `{X: 2, Y: 1}` is a win for the civilians. */
  lemma VerdictExample()
    ensures DecideWinner([Player("X", "x", true, Spy), Player("Y", "y", false, Civilian)],
                         [("X", 2), ("Y", 1)]) == CiviliansWin
  {
    assert IsFirstMax([("X", 2), ("Y", 1)], 0);
  }

  /** One count never exceeds the total. */
  lemma {:induction false} CountBelowTotal(t: Tally, i: nat)
    requires i < |t|
    ensures t[i].1 <= Total(t)
    decreases i
  {
    if i > 0 {
      CountBelowTotal(t[1..], i - 1);
    }
  }

  /** Two different entries together never exceed the total. */
  lemma {:induction false} PairBelowTotal(t: Tally, i: nat, j: nat)
    requires i < |t| && j < |t| && i != j
    ensures t[i].1 + t[j].1 <= Total(t)
    decreases i + j
  {
    if i == 0 {
      CountBelowTotal(t[1..], j - 1);
    } else if j == 0 {
      CountBelowTotal(t[1..], i - 1);
    } else {
      PairBelowTotal(t[1..], i - 1, j - 1);
    }
  }

  /** When more than half of the votes name the same spy, that spy is the top suspect
      and the civilians win, whatever the other votes are and in whatever order. */
  lemma MajorityCatchesSpy(ps: seq<Player>, votes: Votes, sp: string)
    requires sp != "" && IsSpyId(ps, sp)
    requires 2 * Occurrences(votes, sp) > |votes|
    ensures DecideWinner(ps, CountVotes(votes)) == CiviliansWin
  {
    var t := CountVotes(votes);
    var c := Occurrences(votes, sp);
    assert Lookup(t, sp) == Some(c);
    var b := IndexOf(t, sp);
    assert t[b].1 == c;
    forall j | 0 <= j < |t| && j != b
      ensures t[j].1 < t[b].1
    {
      PairBelowTotal(t, j, b);
    }
    assert IsFirstMax(t, b);
  }
}

=== FILE: scenarios.dfy ===
/** Worked rounds of three players in room "AB12", for every random draw. */
module Scenarios {
  import opened Types
  import opened AssocList
  import opened Catalog
  import opened Spies
  import opened Resolution
  import opened Server
  import opened Rounds

  const Code: string := "AB12"

  /** Host "h" creates room "AB12"; "b" and then "c" join it. */
  function Lobby(): (rooms: Rooms)
    ensures Code in rooms
    ensures rooms[Code].players == [Player("h", "Hala", true, Unassigned), Player("b", "Badr", false, Unassigned),
                                    Player("c", "Ciel", false, Unassigned)]
    ensures rooms[Code].hostId == "h" && !rooms[Code].gameStarted
    ensures rooms[Code].category == "general" && rooms[Code].spiesCount == 1
    ensures rooms.Keys == {Code} && rooms[Code].votes.None?
  {
    var o1 := CreateRoom(map[], "h", Code, "Hala");
    var o2 := JoinRoom(o1.rooms, "b", Code, "Badr");
    JoinRoom(o2.rooms, "c", Code, "Ciel").rooms
  }

  /** The host starts the round. */
  function Dealt(draws: Draws): (o: Outcome)
    ensures o.Next? && Code in o.rooms
    ensures RoundSetUp(Lobby()[Code], o.rooms[Code])
    ensures RolesDealt(o.rooms[Code].players, o.rooms[Code].secretWord, o.events)
  {
    StartGame(Lobby(), "h", Code, draws)
  }

  /** A roster with exactly one spy has one seat that is the spy and no other. */
  lemma {:induction false} SingleSpy(ps: seq<Player>)
    requires RoleCount(ps, Spy) == 1
    ensures exists s :: 0 <= s < |ps| && ps[s].role == Spy && forall i :: 0 <= i < |ps| && i != s ==> ps[i].role != Spy
    decreases |ps|
  {
    var n := |ps|;
    var prefix := ps[..n - 1];
    if ps[n - 1].role == Spy {
      NoneCounted(prefix);
      assert forall i :: 0 <= i < n - 1 ==> ps[i] == prefix[i];
      assert ps[n - 1].role == Spy && forall i :: 0 <= i < n && i != n - 1 ==> ps[i].role != Spy;
    } else {
      SingleSpy(prefix);
      var s :| 0 <= s < |prefix| && prefix[s].role == Spy
               && forall i :: 0 <= i < |prefix| && i != s ==> prefix[i].role != Spy;
      forall i | 0 <= i < n && i != s
        ensures ps[i].role != Spy
      {
        if i < n - 1 {
          assert ps[i] == prefix[i];
        }
      }
      assert ps[s] == prefix[s];
    }
  }

  /** A built-in category never deals the spy marker as the secret word. */
  lemma BuiltInWordNotMarker(r: Room, r': Room)
    requires RoundSetUp(r, r') && r.category != Custom
    ensures r'.secretWord != SpyMarker
  {
    MarkerNotInCatalog(FindCategory(r.category));
  }

  /** Whatever the draws, the round has one spy and two civilians, and exactly one of
      the three `game_start` messages carries the spy marker. */
  lemma DealOneSpy(draws: Draws)
    ensures var o := Dealt(draws);
            && RoleCount(o.rooms[Code].players, Spy) == 1
            && RoleCount(o.rooms[Code].players, Civilian) == 2
            && exists s :: 0 <= s < 3 && o.events[s].msg.word == SpyMarker
                 && forall i :: 0 <= i < 3 && i != s ==> o.events[i].msg.word != SpyMarker
  {
    var o := Dealt(draws);
    var r := o.rooms[Code];
    var ps := r.players;
    assert |ps| == 3 && |o.events| == 3;
    assert r.spiesCount == 1;
    RolesSplit(ps);
    SingleSpy(ps);
    BuiltInWordNotMarker(Lobby()[Code], r);
    var s :| 0 <= s < |ps| && ps[s].role == Spy && forall i :: 0 <= i < |ps| && i != s ==> ps[i].role != Spy;
    assert o.events[s].msg.word == SpyMarker;
    forall i | 0 <= i < 3 && i != s
      ensures o.events[i].msg.word != SpyMarker
    {
      assert o.events[i].msg.word == r.secretWord;
    }
  }

  /** How many of the three votes name `sp`. */
  function Hits(x1: string, x2: string, x3: string, sp: string): nat
  {
    (if x1 == sp then 1 else 0) + (if x2 == sp then 1 else 0) + (if x3 == sp then 1 else 0)
  }

  /** The dealt room seats "h", "b" and "c", one of them the spy, with no votes yet. */
  lemma DealtShape(draws: Draws)
    ensures var r := Dealt(draws).rooms[Code];
            && |r.players| == 3 && r.votes == Some([])
            && r.players[0].id == "h" && r.players[1].id == "b" && r.players[2].id == "c"
            && RoleCount(r.players, Spy) == 1
  {
    var r := Dealt(draws).rooms[Code];
    assert SameSeats(Lobby()[Code].players, r.players);
    DealOneSpy(draws);
  }

  /** In a room of three players with no votes yet, such as the dealt room (see
      `DealtShape`), "h" and then "b" vote: each vote only reports progress, since one
      player has not voted, and both votes are kept in order. */
  lemma TwoVotesPending(rooms: Rooms, x1: string, x2: string)
    requires Code in rooms && |rooms[Code].players| == 3 && rooms[Code].votes == Some([])
    ensures var o1 := SubmitVote(rooms, "h", Code, x1);
            && o1.Next? && |o1.events| == 1
            && var o2 := SubmitVote(o1.rooms, "b", Code, x2);
            && o2.Next? && |o2.events| == 1 && Code in o2.rooms
            && o2.rooms[Code] == rooms[Code].(votes := Some([("h", x1), ("b", x2)]))
  {
    var o1 := SubmitVote(rooms, "h", Code, x1);
    VoteStep(rooms, "h", x1, []);
    assert [] + [("h", x1)] == [("h", x1)];
    SecondVote(o1.rooms, x1, x2);
  }

  /** After the vote of "h" in a room of three, the vote of "b" still leaves one player
      to vote. */
  lemma SecondVote(rooms: Rooms, x1: string, x2: string)
    requires Code in rooms && |rooms[Code].players| == 3 && rooms[Code].votes == Some([("h", x1)])
    ensures var o := SubmitVote(rooms, "b", Code, x2);
            && o.Next? && |o.events| == 1 && Code in o.rooms
            && o.rooms[Code] == rooms[Code].(votes := Some([("h", x1), ("b", x2)]))
  {
    assert Keys([("h", x1)]) == ["h"];
    VoteStep(rooms, "b", x2, [("h", x1)]);
    assert [("h", x1)] + [("b", x2)] == [("h", x1), ("b", x2)];
  }

  /** Once "h" and "b" have voted in a room of "h", "b" and "c", such as the dealt
      room, the vote of "c" resolves the round at once; when two of the three votes name
      the same spy `sp`, the civilians win. */
  lemma ThirdVoteCatchesSpy(rooms: Rooms, x1: string, x2: string, x3: string, sp: string)
    requires Code in rooms
    requires var r := rooms[Code];
             && |r.players| == 3
             && r.players[0].id == "h" && r.players[1].id == "b" && r.players[2].id == "c"
             && r.votes == Some([("h", x1), ("b", x2)])
    requires IsSpyId(rooms[Code].players, sp) && Hits(x1, x2, x3, sp) >= 2
    ensures var o := SubmitVote(rooms, "c", Code, x3);
            && o.Next? && |o.events| == 2
            && o.events[1].msg.GameOver? && o.events[1].msg.winner == CiviliansWin
  {
    var v: Votes := [("h", x1), ("b", x2)];
    assert Keys(v) == ["h", "b"];
    LastVote(rooms, "c", x3, v);
    WinnerOfThree(rooms[Code].players, x1, x2, x3, sp);
  }

  /** The votes of "h", "b" and "c", in that order, name `sp` as often as the three
      suspects do. */
  lemma ThreeOccurrences(x1: string, x2: string, x3: string, sp: string)
    ensures Occurrences([("h", x1), ("b", x2), ("c", x3)], sp) == Hits(x1, x2, x3, sp)
  {
    var v: Votes := [("h", x1), ("b", x2), ("c", x3)];
    var u: Votes := [("h", x1), ("b", x2)];
    var w: Votes := [("h", x1)];
    assert v[..2] == u && u[..1] == w && w[..0] == [];
    assert Occurrences(w, sp) == (if x1 == sp then 1 else 0);
    assert Occurrences(u, sp) == Occurrences(w, sp) + (if x2 == sp then 1 else 0);
  }

  /** A first vote from `caller` that leaves someone still to vote only reports the
      progress and appends the vote. */
  lemma VoteStep(rooms: Rooms, caller: string, x: string, v: Votes)
    requires Code in rooms && rooms[Code].votes == Some(v) && caller !in Keys(v)
    requires |v| + 1 < |rooms[Code].players|
    ensures var o := SubmitVote(rooms, caller, Code, x);
            && o.Next? && |o.events| == 1 && Code in o.rooms
            && o.rooms[Code] == rooms[Code].(votes := Some(v + [(caller, x)]))
  {
  }

  /** The vote that completes the count resolves the round. */
  lemma LastVote(rooms: Rooms, caller: string, x: string, v: Votes)
    requires Code in rooms && rooms[Code].votes == Some(v) && caller !in Keys(v)
    requires |v| + 1 == |rooms[Code].players|
    ensures var o := SubmitVote(rooms, caller, Code, x);
            && o.Next? && |o.events| == 2 && o.events[1].msg.GameOver?
            && (o.events[1].msg.winner == CiviliansWin
                <==> DecideWinner(rooms[Code].players, CountVotes(v + [(caller, x)])) == CiviliansWin)
  {
    var r' := rooms[Code].(votes := Some(v + [(caller, x)]));
    assert GameOverFor(r', SubmitVote(rooms, caller, Code, x).events[1].msg);
  }

  /** Two of the three votes of "h", "b" and "c" naming the same spy win the round
      for the civilians. */
  lemma WinnerOfThree(ps: seq<Player>, x1: string, x2: string, x3: string, sp: string)
    requires |ps| == 3 && ps[0].id == "h" && ps[1].id == "b" && ps[2].id == "c"
    requires IsSpyId(ps, sp) && Hits(x1, x2, x3, sp) >= 2
    ensures DecideWinner(ps, CountVotes([("h", x1), ("b", x2)] + [("c", x3)])) == CiviliansWin
  {
    var i :| 0 <= i < |ps| && ps[i].role == Spy && ps[i].id == sp;
    assert sp != "";
    ThreeOccurrences(x1, x2, x3, sp);
    assert [("h", x1), ("b", x2)] + [("c", x3)] == [("h", x1), ("b", x2), ("c", x3)];
    MajorityCatchesSpy(ps, [("h", x1), ("b", x2), ("c", x3)], sp);
  }

  /** The host leaves while "b" and "c" remain: "b", who joined first, becomes host and
      alone is told so; the roster broadcast follows. */
  lemma HostLeaves(order: seq<string>)
    requires Code in order
    ensures var o := Disconnect(Lobby(), "h", order);
            && o.Next? && Code in o.rooms
            && o.rooms[Code].hostId == "b"
            && o.rooms[Code].players == [Player("b", "Badr", true, Unassigned), Player("c", "Ciel", false, Unassigned)]
            && o.events == [Emit(ToSocket("b"), YouAreHost), Emit(ToRoom(Code), UpdatePlayers(o.rooms[Code].players))]
  {
    var rooms := Lobby();
    assert rooms.Keys == {Code};
    assert Holds(rooms, Code, "h") by {
      assert rooms[Code].players[0].id == "h";
    }
    assert RoomOf(rooms, "h", order) == Some(Code);
    assert PlayerIndex(rooms[Code].players, "h") == 0;
  }

  /** In the lobby, before any round or voting phase, a vote from a socket that is not
      even seated in the room makes `submit_vote` throw: the server as written goes
      down with every room. The guarded handler ignores the vote. */
  lemma StrayVoteCrashes()
    ensures !InRoom(Lobby()[Code].players, "z")
    ensures SubmitVote(Lobby(), "z", Code, "h") == Threw
    ensures SafeSubmitVote(Lobby(), "z", Code, "h") == Next(Lobby(), [])
  {
    var ps := Lobby()[Code].players;
    assert ps[0].id != "z" && ps[1].id != "z" && ps[2].id != "z";
  }

  /** In the lobby, `force_reveal` from any socket makes `finishGame` throw; the guarded
      handler leaves the room alone. */
  lemma EarlyRevealCrashes()
    ensures FinishGame(Lobby(), Code) == Threw
    ensures SafeFinishGame(Lobby(), Code) == Next(Lobby(), [])
  {
  }

  /** Joining an unknown room code is refused with an error to the caller and changes no
      room. */
  lemma JoinUnknownCode()
    ensures JoinRoom(Lobby(), "z", "ZZ99", "Zed") == Next(Lobby(), [Emit(ToSocket("z"), ErrorMessage(RoomNotFound))])
  {
    assert "ZZ99" !in Lobby();
  }
}

=== FILE: server.dfy ===
/** The socket handlers of the game server, each a pure transition from the `rooms`
    object, the caller's socket id and the payload to the new `rooms` object and the
    events emitted. Random draws are parameters; the transport is left to the events. */
module Server {
  import opened Types
  import opened AssocList
  import opened Catalog
  import opened Spies
  import opened Resolution

  /** What a spy receives in place of the secret word ("you are out of the loop"). */
  const SpyMarker: string := "أنت برا السالفة!"

  /** The `Math.random()` draws of a round start: for the word, for each accepted spy
      pick, and for the first speaker. Each is reduced modulo the length it indexes. */
  datatype Draws = Draws(word: nat, spies: nat -> nat, first: nat)

  /** True when `caller` is the recorded host of an existing room `code`. */
  predicate IsHost(rooms: Rooms, code: string, caller: string)
  {
    code in rooms && rooms[code].hostId == caller
  }

  // --- Lobby ---

  /** `create_room`: the room under `code` (a fresh code is a parameter; an existing
      room with the same code is replaced) holds the caller alone, as host, with the
      default settings; no other room changes. */
  function CreateRoom(rooms: Rooms, caller: string, code: string, playerName: string): (o: Outcome)
    ensures o.Next? && o.rooms.Keys == rooms.Keys + {code}
    ensures forall c :: c in rooms && c != code ==> o.rooms[c] == rooms[c]
    ensures o.rooms[code].players == [Player(caller, playerName, true, Unassigned)]
    ensures o.rooms[code].hostId == caller && o.rooms[code].code == code
    ensures !o.rooms[code].gameStarted && o.rooms[code].votes.None? && o.rooms[code].customWords.None?
    ensures o.rooms[code].category == "general" && o.rooms[code].spiesCount == 1
    ensures |o.events| == 3 && o.events[0] == Emit(ToSocket(caller), RoomJoined(code, true, caller))
    ensures o.events[1] == Emit(ToRoom(code), UpdatePlayers(o.rooms[code].players))
    ensures o.events[2] == Emit(ToRoom(code), Settings("general", 1, None))
  {
    var room := Room(code, [Player(caller, playerName, true, Unassigned)], false, caller, "general", 1, None, "", None);
    Next(rooms[code := room], [
      Emit(ToSocket(caller), RoomJoined(code, true, caller)),
      Emit(ToRoom(code), UpdatePlayers(room.players)),
      Emit(ToRoom(code), Settings(room.category, room.spiesCount, None))])
  }

  /** True when `join_room` admits a new player into room `code`. */
  predicate JoinAdmits(rooms: Rooms, code: string)
  {
    code in rooms && !rooms[code].gameStarted && |rooms[code].players| < MaxPlayers
  }

  /** `join_room`: an unknown code, a started game and a full room are refused, in that
      order, with an error to the caller and no change; otherwise the caller is
      appended as a non-host player without a role, and nothing else changes. */
  function JoinRoom(rooms: Rooms, caller: string, code: string, playerName: string): (o: Outcome)
    ensures o.Next?
    ensures code !in rooms ==> o == Next(rooms, [Emit(ToSocket(caller), ErrorMessage(RoomNotFound))])
    ensures code in rooms && rooms[code].gameStarted ==> o == Next(rooms, [Emit(ToSocket(caller), ErrorMessage(GameAlreadyStarted))])
    ensures code in rooms && !rooms[code].gameStarted && |rooms[code].players| >= MaxPlayers ==>
              o == Next(rooms, [Emit(ToSocket(caller), ErrorMessage(RoomFull))])
    ensures JoinAdmits(rooms, code) ==>
              && o.rooms.Keys == rooms.Keys
              && (forall c :: c in rooms && c != code ==> o.rooms[c] == rooms[c])
              && o.rooms[code].players == rooms[code].players + [Player(caller, playerName, false, Unassigned)]
              && o.rooms[code] == rooms[code].(players := o.rooms[code].players)
              && |o.events| == 3
              && o.events[0] == Emit(ToSocket(caller), RoomJoined(code, false, caller))
              && o.events[1] == Emit(ToRoom(code), UpdatePlayers(o.rooms[code].players))
              && o.events[2] == Emit(ToSocket(caller), Settings(rooms[code].category, rooms[code].spiesCount, None))
  {
    if code !in rooms then Next(rooms, [Emit(ToSocket(caller), ErrorMessage(RoomNotFound))])
    else
      var room := rooms[code];
      if room.gameStarted then Next(rooms, [Emit(ToSocket(caller), ErrorMessage(GameAlreadyStarted))])
      else if |room.players| >= MaxPlayers then Next(rooms, [Emit(ToSocket(caller), ErrorMessage(RoomFull))])
      else
        var room' := room.(players := room.players + [Player(caller, playerName, false, Unassigned)]);
        Next(rooms[code := room'], [
          Emit(ToSocket(caller), RoomJoined(code, false, caller)),
          Emit(ToRoom(code), UpdatePlayers(room'.players)),
          Emit(ToSocket(caller), Settings(room'.category, room'.spiesCount, None))])
  }

  // --- Settings (host only) ---

  /** `hasCustomWords`: `customWords && customWords.length > 0`, undefined while no
      list was ever set. */
  function HasCustomWords(customWords: Option<seq<string>>): (h: Option<bool>)
    ensures h.Some? <==> customWords.Some?
    ensures h.Some? ==> (h.value <==> customWords.value != [])
  {
    match customWords
    case None => None
    case Some(ws) => Some(|ws| > 0)
  }

  /** `update_settings`: nothing happens unless the caller hosts the room. From the host,
      each field supplied with a truthy value replaces the stored one (a non-empty
      category, a non-zero spy count, any word list, even an empty one); no other
      field of any room changes, and the resulting settings are broadcast. */
  function UpdateSettings(rooms: Rooms, caller: string, code: string,
                          category: string, spiesCount: int, customWords: Option<seq<string>>): (o: Outcome)
    ensures o.Next?
    ensures !IsHost(rooms, code, caller) ==> o == Next(rooms, [])
    ensures IsHost(rooms, code, caller) ==> code in o.rooms
    ensures IsHost(rooms, code, caller) && code in o.rooms ==>
              var r := rooms[code];
              var r' := o.rooms[code];
              && o.rooms == rooms[code := r']
              && r' == r.(category := r'.category, spiesCount := r'.spiesCount, customWords := r'.customWords)
              && r'.category == (if category != "" then category else r.category)
              && r'.spiesCount == (if spiesCount != 0 then spiesCount else r.spiesCount)
              && r'.customWords == (if customWords.Some? then customWords else r.customWords)
              && o.events == [Emit(ToRoom(code), Settings(r'.category, r'.spiesCount, HasCustomWords(r'.customWords)))]
  {
    if !IsHost(rooms, code, caller) then Next(rooms, [])
    else
      var room := rooms[code];
      var room1 := if category != "" then room.(category := category) else room;
      var room2 := if spiesCount != 0 then room1.(spiesCount := spiesCount) else room1;
      var room3 := if customWords.Some? then room2.(customWords := customWords) else room2;
      Next(rooms[code := room3],
           [Emit(ToRoom(code), Settings(room3.category, room3.spiesCount, HasCustomWords(room3.customWords)))])
  }

  // --- Round start (host only) ---

  /** The `game_start` messages, one per player in roster order. */
  function RoleMessages(ps: seq<Player>, word: string, first: string): seq<Event>
  {
    seq(|ps|, i requires 0 <= i < |ps| =>
      Emit(ToSocket(ps[i].id), GameStart(ps[i].role, if ps[i].role == Spy then SpyMarker else word, first)))
  }

  /** Room `r'` is room `r` set up for a round: started, votes emptied, a word from the
      list the settings select, the spy count clamped below the number of players and
      exactly that many spies (none for a count that is not positive), every other
      player a civilian, and the seats, host, code and settings as they were. */
  ghost predicate RoundSetUp(r: Room, r': Room)
  {
    var n := |r.players|;
    && r'.gameStarted
    && r'.votes == Some([])
    && r'.secretWord in WordList(r.category, r.customWords)
    && (r.spiesCount < n ==> r'.spiesCount == r.spiesCount)
    && (r.spiesCount >= n ==> r'.spiesCount == n - 1)
    && SameSeats(r.players, r'.players)
    && (forall i :: 0 <= i < |r'.players| ==> r'.players[i].role == Spy || r'.players[i].role == Civilian)
    && RoleCount(r'.players, Spy) == (if r'.spiesCount > 0 then r'.spiesCount else 0)
    && r' == r.(players := r'.players, gameStarted := true, spiesCount := r'.spiesCount,
                secretWord := r'.secretWord, votes := Some([]))
  }

  /** The `game_start` messages of a round: one to each player, in roster order,
      carrying that player's role; a civilian's word is the secret word, a spy's is the
      spy marker; all name the same first speaker, a player of the room. */
  ghost predicate RolesDealt(ps: seq<Player>, word: string, events: seq<Event>)
  {
    && |events| == |ps|
    && (forall i :: 0 <= i < |ps| ==>
          && events[i].dest == ToSocket(ps[i].id)
          && events[i].msg.GameStart?
          && events[i].msg.role == ps[i].role
          && (ps[i].role == Spy ==> events[i].msg.word == SpyMarker)
          && (ps[i].role != Spy ==> events[i].msg.word == word))
    && (|ps| > 0 ==> exists j :: 0 <= j < |ps| && forall i :: 0 <= i < |ps| ==> events[i].msg.firstPlayer == ps[j].name)
  }

  /** The room set up for a round with secret word `word`: roles reset, the spy count
      clamped, the spies marked, votes emptied, the game started. */
  function SetUpRound(r: Room, word: string, pick: nat -> nat): (r': Room)
    requires |r.players| >= MinPlayers
    requires word in WordList(r.category, r.customWords)
    ensures RoundSetUp(r, r')
    ensures r'.secretWord == word
  {
    var k := ClampSpies(r.spiesCount, |r.players|);
    var ps := AssignRoles(r.players, if k > 0 then k else 0, pick);
    r.(secretWord := word, votes := Some([]), players := ps, spiesCount := k, gameStarted := true)
  }

  /** Each player is told its role, and the first speaker is player `j`. */
  lemma RoleMessagesDealt(ps: seq<Player>, word: string, j: nat)
    requires j < |ps|
    ensures RolesDealt(ps, word, RoleMessages(ps, word, ps[j].name))
  {
    var events := RoleMessages(ps, word, ps[j].name);
    assert forall i :: 0 <= i < |ps| ==> events[i].msg.firstPlayer == ps[j].name;
  }

  /** `start_game`: ignored unless the caller hosts the room; refused with an error to
      the caller for fewer than three players, then for the custom category without
      words; otherwise the round is set up and each player is told its role. */
  function StartGame(rooms: Rooms, caller: string, code: string, draws: Draws): (o: Outcome)
    ensures o.Next?
    ensures !IsHost(rooms, code, caller) ==> o == Next(rooms, [])
    ensures IsHost(rooms, code, caller) && |rooms[code].players| < MinPlayers ==>
              o == Next(rooms, [Emit(ToSocket(caller), ErrorMessage(TooFewPlayers))])
    ensures IsHost(rooms, code, caller) && |rooms[code].players| >= MinPlayers
            && !HasWords(rooms[code].category, rooms[code].customWords) ==>
              o == Next(rooms, [Emit(ToSocket(caller), ErrorMessage(NoCustomWords))])
    ensures IsHost(rooms, code, caller) && |rooms[code].players| >= MinPlayers
            && HasWords(rooms[code].category, rooms[code].customWords) ==>
              && code in o.rooms
              && o.rooms == rooms[code := o.rooms[code]]
              && RoundSetUp(rooms[code], o.rooms[code])
              && RolesDealt(o.rooms[code].players, o.rooms[code].secretWord, o.events)
  {
    if !IsHost(rooms, code, caller) then Next(rooms, [])
    else
      var room := rooms[code];
      var n := |room.players|;
      if n < MinPlayers then Next(rooms, [Emit(ToSocket(caller), ErrorMessage(TooFewPlayers))])
      else
        match PickWord(room.category, room.customWords, draws.word)
        case None => Next(rooms, [Emit(ToSocket(caller), ErrorMessage(NoCustomWords))])
        case Some(word) =>
          var room' := SetUpRound(room, word, draws.spies);
          var j := draws.first % n;
          RoleMessagesDealt(room'.players, word, j);
          Next(rooms[code := room'], RoleMessages(room'.players, word, room'.players[j].name))
  }

  // --- Voting and resolution ---

  /** `start_voting`: ignored unless the caller hosts the room; from the host, the votes
      are emptied (nothing else changes) and every player's id and name, without roles,
      is broadcast as a candidate. */
  function StartVoting(rooms: Rooms, caller: string, code: string): (o: Outcome)
    ensures o.Next?
    ensures !IsHost(rooms, code, caller) ==> o == Next(rooms, [])
    ensures IsHost(rooms, code, caller) ==>
              && o.rooms == rooms[code := rooms[code].(votes := Some([]))]
              && |o.events| == 1 && o.events[0].dest == ToRoom(code)
              && o.events[0].msg.VotingPhase?
              && |o.events[0].msg.candidates| == |rooms[code].players|
              && forall i :: 0 <= i < |rooms[code].players| ==>
                   o.events[0].msg.candidates[i] == PlayerInfo(rooms[code].players[i].id, rooms[code].players[i].name)
  {
    if !IsHost(rooms, code, caller) then Next(rooms, [])
    else
      var room := rooms[code];
      Next(rooms[code := room.(votes := Some([]))], [Emit(ToRoom(code), VotingPhase(Infos(room.players)))])
  }

  /** The `game_over` message for room `r`: its secret word, the names of its spies, the
      tally of its votes, the winner, and every player's id and name. The winner is the
      civilians exactly when the first strict maximum of the tally names a spy. */
  ghost predicate GameOverFor(r: Room, m: Msg)
    requires r.votes.Some?
  {
    && m.GameOver?
    && m.secretWord == r.secretWord
    && m.tally == CountVotes(r.votes.value)
    && m.spies == SpyNames(r.players)
    && m.players == Infos(r.players)
    && (m.winner == CiviliansWin <==> SpyCaught(r.players, m.tally))
  }

  /** `finishGame`: nothing for an unknown room; a room whose votes were never set makes
      the handler throw; otherwise the verdict is broadcast and the game is marked not
      started. Votes, secret word and roles are read, not cleared. */
  function FinishGame(rooms: Rooms, code: string): (o: Outcome)
    ensures code !in rooms ==> o == Next(rooms, [])
    ensures code in rooms && rooms[code].votes.None? ==> o == Threw
    ensures code in rooms && rooms[code].votes.Some? ==>
              && o.Next?
              && o.rooms == rooms[code := rooms[code].(gameStarted := false)]
              && |o.events| == 1
              && o.events[0].dest == ToRoom(code)
              && GameOverFor(rooms[code], o.events[0].msg)
  {
    if code !in rooms then Next(rooms, [])
    else
      var room := rooms[code];
      match room.votes
      case None => Threw
      case Some(_) => Next(rooms[code := room.(gameStarted := false)], [Emit(ToRoom(code), Verdict(room))])
  }

  /** The `game_over` message `finishGame` builds for room `r`. */
  function Verdict(r: Room): (m: Msg)
    requires r.votes.Some?
    ensures GameOverFor(r, m)
  {
    var t := CountVotes(r.votes.value);
    GameOver(r.secretWord, SpyNames(r.players), DecideWinner(r.players, t), t, Infos(r.players))
  }

  /** `submit_vote`: nothing for an unknown room; a room whose votes were never set makes
      the handler throw. Otherwise the caller's vote is stored (replacing only the
      caller's earlier vote, in its place); the number of voters and of players is
      broadcast; and the round is resolved, on the updated votes, exactly when those
      numbers are equal. */
  function SubmitVote(rooms: Rooms, caller: string, code: string, suspect: string): (o: Outcome)
    ensures code !in rooms ==> o == Next(rooms, [])
    ensures code in rooms && rooms[code].votes.None? ==> o == Threw
    ensures code in rooms && rooms[code].votes.Some? ==>
              var r := rooms[code];
              var nv := Put(r.votes.value, caller, suspect);
              var r' := r.(votes := Some(nv));
              && o.Next?
              && 1 <= |o.events|
              && o.events[0] == Emit(ToRoom(code), VoteUpdate(|nv|, |r.players|))
              && (|nv| == |r.players| ==>
                    && o.rooms == rooms[code := r'.(gameStarted := false)]
                    && |o.events| == 2 && o.events[1].dest == ToRoom(code)
                    && GameOverFor(r', o.events[1].msg))
              && (|nv| != |r.players| ==> o.rooms == rooms[code := r'] && |o.events| == 1)
  {
    if code !in rooms then Next(rooms, [])
    else
      match rooms[code].votes
      case None => Threw
      case Some(votes) => Record(rooms, code, Put(votes, caller, suspect))
  }

  /** The rest of `submit_vote` once the votes of room `code` are `nv`: the progress
      broadcast, and, when every player has voted, what `finishGame` does on the room
      with those votes. */
  function Record(rooms: Rooms, code: string, nv: Votes): (o: Outcome)
    requires code in rooms
    ensures var r := rooms[code];
            var r' := r.(votes := Some(nv));
            && o.Next?
            && 1 <= |o.events|
            && o.events[0] == Emit(ToRoom(code), VoteUpdate(|nv|, |r.players|))
            && (|nv| == |r.players| ==>
                  && o.rooms == rooms[code := r'.(gameStarted := false)]
                  && |o.events| == 2 && o.events[1].dest == ToRoom(code)
                  && GameOverFor(r', o.events[1].msg))
            && (|nv| != |r.players| ==> o.rooms == rooms[code := r'] && |o.events| == 1)
  {
    var room := rooms[code];
    var r' := room.(votes := Some(nv));
    var rooms' := rooms[code := r'];
    var update := Emit(ToRoom(code), VoteUpdate(|nv|, |room.players|));
    if |nv| == |room.players| then
      Next(rooms[code := r'.(gameStarted := false)], [update, Emit(ToRoom(code), Verdict(r'))])
    else Next(rooms', [update])
  }

  /** `finishGame` guarded by `if (!room || !room.votes) return;`: a room that never
      had a round or a voting phase is left alone instead of crashing the server;
      everywhere else it does what `finishGame` does. */
  function SafeFinishGame(rooms: Rooms, code: string): (o: Outcome)
    ensures o.Next?
    ensures code in rooms && rooms[code].votes.None? ==> o == Next(rooms, [])
    ensures FinishGame(rooms, code).Next? ==> o == FinishGame(rooms, code)
  {
    if code in rooms && rooms[code].votes.None? then Next(rooms, [])
    else FinishGame(rooms, code)
  }

  /** `submit_vote` with the same guard: a vote for a room that never had a round or a
      voting phase is ignored instead of crashing the server; everywhere else it does
      what `submit_vote` does. */
  function SafeSubmitVote(rooms: Rooms, caller: string, code: string, suspect: string): (o: Outcome)
    ensures o.Next?
    ensures code in rooms && rooms[code].votes.None? ==> o == Next(rooms, [])
    ensures SubmitVote(rooms, caller, code, suspect).Next? ==> o == SubmitVote(rooms, caller, code, suspect)
  {
    if code in rooms && rooms[code].votes.None? then Next(rooms, [])
    else SubmitVote(rooms, caller, code, suspect)
  }

  /** `reset_lobby`: from the host, a return-to-lobby broadcast; the state is untouched
      either way. */
  function ResetLobby(rooms: Rooms, caller: string, code: string): (o: Outcome)
    ensures o.Next? && o.rooms == rooms
    ensures o.events == if IsHost(rooms, code, caller) then [Emit(ToRoom(code), ReturnToLobby)] else []
  {
    if !IsHost(rooms, code, caller) then Next(rooms, [])
    else Next(rooms, [Emit(ToRoom(code), ReturnToLobby)])
  }

  // --- Disconnect ---

  /** True when room `c` exists and seats a player with socket id `id`. */
  predicate Holds(rooms: Rooms, c: string, id: string)
  {
    c in rooms && InRoom(rooms[c].players, id)
  }

  /** The room the disconnect loop stops at: the first code, in the enumeration order
      `order` of the `rooms` object, whose room seats the caller. */
  function RoomOf(rooms: Rooms, caller: string, order: seq<string>): (r: Option<string>)
    ensures r.None? <==> forall i :: 0 <= i < |order| ==> !Holds(rooms, order[i], caller)
    ensures r.Some? ==> Holds(rooms, r.value, caller)
    ensures r.Some? ==> exists i :: 0 <= i < |order| && order[i] == r.value
                          && forall j :: 0 <= j < i ==> !Holds(rooms, order[j], caller)
  {
    if |order| == 0 then None
    else if Holds(rooms, order[0], caller) then Some(order[0])
    else
      var r := RoomOf(rooms, caller, order[1..]);
      assert forall i :: 0 < i < |order| ==> order[1..][i - 1] == order[i];
      r
  }

  /** `findIndex(p => p.id === id)`: the first seat of the player with id `id`. */
  function PlayerIndex(ps: seq<Player>, id: string): (i: nat)
    requires InRoom(ps, id)
    ensures i < |ps| && ps[i].id == id
    ensures forall j :: 0 <= j < i ==> ps[j].id != id
  {
    if ps[0].id == id then 0
    else
      assert InRoom(ps[1..], id) by {
        var j :| 0 <= j < |ps| && ps[j].id == id;
        assert ps[1..][j - 1] == ps[j];
      }
      1 + PlayerIndex(ps[1..], id)
  }

  /** The room after the player in seat `i` leaves, or nothing when it was the last
      one. The seat is removed and the others keep their order; when the leaver was the
      host, the new first player becomes host. */
  function Depart(room: Room, i: nat): (r: Option<Room>)
    requires i < |room.players|
    ensures r.None? <==> |room.players| == 1
    ensures r.Some? ==> r.value == room.(players := r.value.players, hostId := r.value.hostId)
  {
    var rest := DropSeat(room.players, i);
    if |rest| == 0 then None
    else if room.players[i].isHost then
      var ps' := rest[0 := rest[0].(isHost := true)];
      Some(room.(players := ps', hostId := ps'[0].id))
    else
      Some(room.(players := rest))
  }

  /** After a departure the others keep their order, ids, names and roles, seat `i`
      gone. */
  lemma DepartSeats(room: Room, i: nat)
    requires i < |room.players| && Depart(room, i).Some?
    ensures var ps := room.players;
            var ps' := Depart(room, i).value.players;
            && |ps'| == |ps| - 1
            && (forall j :: 0 <= j < i ==> ps'[j].id == ps[j].id && ps'[j].name == ps[j].name && ps'[j].role == ps[j].role)
            && (forall j :: i <= j < |ps'| ==> ps'[j].id == ps[j + 1].id && ps'[j].name == ps[j + 1].name && ps'[j].role == ps[j + 1].role)
  {
  }

  /** After a departure the host flags stay where they were, except that when the
      leaver was the host, the new first player becomes host and the room's `hostId`
      follows it; otherwise `hostId` is unchanged. */
  lemma DepartHost(room: Room, i: nat)
    requires i < |room.players| && Depart(room, i).Some?
    ensures var ps := room.players;
            var r' := Depart(room, i).value;
            var ps' := r'.players;
            && |ps'| == |ps| - 1
            && (forall j :: 1 <= j < |ps'| ==> ps'[j].isHost == (if j < i then ps[j].isHost else ps[j + 1].isHost))
            && (ps[i].isHost ==> ps'[0].isHost && r'.hostId == ps'[0].id)
            && (!ps[i].isHost ==> ps'[0].isHost == (if i == 0 then ps[1].isHost else ps[0].isHost) && r'.hostId == room.hostId)
  {
  }

  /** Removing seat `i` shifts the later seats down by one. */
  function DropSeat(ps: seq<Player>, i: nat): (rest: seq<Player>)
    requires i < |ps|
    ensures |rest| == |ps| - 1
    ensures forall j :: 0 <= j < i ==> rest[j] == ps[j]
    ensures forall j :: i <= j < |rest| ==> rest[j] == ps[j + 1]
  {
    ps[..i] + ps[i + 1..]
  }

  /** A scan over every code finds a room seating the caller whenever there is one. */
  lemma SeatedFound(rooms: Rooms, caller: string, order: seq<string>)
    requires forall c :: c in rooms ==> c in order
    ensures (exists c :: Holds(rooms, c, caller)) ==> RoomOf(rooms, caller, order).Some?
  {
    if exists c :: Holds(rooms, c, caller) {
      var c :| Holds(rooms, c, caller);
      var i :| 0 <= i < |order| && order[i] == c;
    }
  }

  /** `disconnect`: the caller leaves the first room (in the enumeration order `order`,
      which lists every code of `rooms`) that seats it, from its first seat; a caller
      seated anywhere is found. Other rooms are not touched, even one that also seats
      the caller. A room left empty is deleted; otherwise, if the leaver was the host,
      the new host is told so, and the roster is broadcast. */
  function Disconnect(rooms: Rooms, caller: string, order: seq<string>): (o: Outcome)
    requires forall c :: c in rooms ==> c in order
    ensures o.Next?
    ensures (forall c :: c in rooms ==> !Holds(rooms, c, caller)) ==> o == Next(rooms, [])
    ensures (exists c :: Holds(rooms, c, caller)) ==> RoomOf(rooms, caller, order).Some?
    ensures RoomOf(rooms, caller, order).Some? ==>
              var code := RoomOf(rooms, caller, order).value;
              var ps := rooms[code].players;
              var i := PlayerIndex(ps, caller);
              var left := Depart(rooms[code], i);
              && (left.None? ==> o == Next(rooms - {code}, []))
              && (left.Some? ==> o.rooms == rooms[code := left.value])
              && (left.Some? && ps[i].isHost ==>
                    o.events == [Emit(ToSocket(left.value.players[0].id), YouAreHost),
                                 Emit(ToRoom(code), UpdatePlayers(left.value.players))])
              && (left.Some? && !ps[i].isHost ==> o.events == [Emit(ToRoom(code), UpdatePlayers(left.value.players))])
  {
    SeatedFound(rooms, caller, order);
    match RoomOf(rooms, caller, order)
    case None => Next(rooms, [])
    case Some(code) =>
      var room := rooms[code];
      var i := PlayerIndex(room.players, caller);
      match Depart(room, i)
      case None => Next(rooms - {code}, [])
      case Some(room') =>
        if room.players[i].isHost then
          Next(rooms[code := room'], [Emit(ToSocket(room'.players[0].id), YouAreHost), Emit(ToRoom(code), UpdatePlayers(room'.players))])
        else
          Next(rooms[code := room'], [Emit(ToRoom(code), UpdatePlayers(room'.players))])
  }

  // --- Dispatch ---

  /** The inbound actions of a socket (the advisory timer relay is not modelled). */
  datatype Action =
    | Create(newCode: string, playerName: string)
    | Join(code: string, playerName: string)
    | ChangeSettings(code: string, category: string, spiesCount: int, customWords: Option<seq<string>>)
    | Start(code: string)
    | OpenVoting(code: string)
    | Vote(code: string, suspect: string)
    | Reveal(code: string)
    | BackToLobby(code: string)
    | Leave

  /** One handler run for the action `a` of socket `caller`: `draws` supplies the
      random values of a round start, `order` the enumeration order of `rooms`, which
      lists every code. `force_reveal` runs the resolution for any caller, host or not.
      A vote or a reveal for a room whose votes were never set is ignored, where the
      server as written crashes (`SubmitVote` and `FinishGame` keep that behaviour). */
  function Handle(rooms: Rooms, caller: string, a: Action, draws: Draws, order: seq<string>): (o: Outcome)
    requires forall c :: c in rooms ==> c in order
    ensures o.Next?
  {
    match a
    case Create(code, name) => CreateRoom(rooms, caller, code, name)
    case Join(code, name) => JoinRoom(rooms, caller, code, name)
    case ChangeSettings(code, category, spies, words) => UpdateSettings(rooms, caller, code, category, spies, words)
    case Start(code) => StartGame(rooms, caller, code, draws)
    case OpenVoting(code) => StartVoting(rooms, caller, code)
    case Vote(code, suspect) => SafeSubmitVote(rooms, caller, code, suspect)
    case Reveal(code) => SafeFinishGame(rooms, code)
    case BackToLobby(code) => ResetLobby(rooms, caller, code)
    case Leave => Disconnect(rooms, caller, order)
  }
}

=== FILE: spies.dfy ===
/** Role assignment at round start: every player is reset to civilian, the requested
    spy count is clamped, and that many distinct players are marked spy. */
module Spies {
  import opened Types

  /** The number of players holding role `r`. */
  function RoleCount(ps: seq<Player>, r: Role): nat
  {
    if |ps| == 0 then 0
    else RoleCount(ps[..|ps| - 1], r) + (if ps[|ps| - 1].role == r then 1 else 0)
  }

  /** The indices of the spies, in increasing order: every spy's seat, once. */
  function SpyIndices(ps: seq<Player>): (r: seq<nat>)
    ensures |r| == RoleCount(ps, Spy)
    ensures forall j :: 0 <= j < |r| ==> r[j] < |ps| && ps[r[j]].role == Spy
    ensures forall j, l :: 0 <= j < l < |r| ==> r[j] < r[l]
    ensures forall i :: 0 <= i < |ps| && ps[i].role == Spy ==> i in r
  {
    if |ps| == 0 then []
    else
      var n := |ps| - 1;
      var prefix := ps[..n];
      assert forall i :: 0 <= i < n ==> prefix[i] == ps[i];
      SpyIndices(prefix) + (if ps[n].role == Spy then [n] else [])
  }

  /** The indices of the players not yet marked spy, in increasing order. */
  function NonSpyIndices(ps: seq<Player>): (r: seq<nat>)
    ensures |r| + RoleCount(ps, Spy) == |ps|
    ensures forall j :: 0 <= j < |r| ==> r[j] < |ps| && ps[r[j]].role != Spy
  {
    if |ps| == 0 then []
    else
      var prefix := ps[..|ps| - 1];
      assert forall i :: 0 <= i < |prefix| ==> prefix[i] == ps[i];
      NonSpyIndices(prefix) + (if ps[|ps| - 1].role != Spy then [|ps| - 1] else [])
  }

  /** Replacing one player changes each role's count by what left and what came in. */
  lemma {:induction false} RoleCountUpdate(ps: seq<Player>, i: nat, q: Player, r: Role)
    requires i < |ps|
    ensures RoleCount(ps[i := q], r) + (if ps[i].role == r then 1 else 0)
         == RoleCount(ps, r) + (if q.role == r then 1 else 0)
    decreases |ps|
  {
    var n := |ps|;
    if i < n - 1 {
      assert ps[i := q][..n - 1] == ps[..n - 1][i := q];
      RoleCountUpdate(ps[..n - 1], i, q, r);
    } else {
      assert ps[i := q][..n - 1] == ps[..n - 1];
    }
  }

  /** A spy count of zero means nobody is a spy. */
  lemma {:induction false} NoneCounted(ps: seq<Player>)
    requires RoleCount(ps, Spy) == 0
    ensures forall i :: 0 <= i < |ps| ==> ps[i].role != Spy
    decreases |ps|
  {
    if |ps| > 0 {
      var prefix := ps[..|ps| - 1];
      NoneCounted(prefix);
      assert forall i :: 0 <= i < |ps| - 1 ==> prefix[i] == ps[i];
    }
  }

  /** Players `r` sit in the seats of `ps`: same number, and each keeps its id, name
      and host flag; only roles may differ. */
  ghost predicate SameSeats(ps: seq<Player>, r: seq<Player>)
  {
    && |r| == |ps|
    && forall i :: 0 <= i < |ps| ==> r[i].id == ps[i].id && r[i].name == ps[i].name && r[i].isHost == ps[i].isHost
  }

  /** `players.forEach(p => p.role = 'civilian')`. */
  function ResetRoles(ps: seq<Player>): (r: seq<Player>)
    ensures SameSeats(ps, r)
    ensures forall i :: 0 <= i < |r| ==> r[i].role == Civilian
    ensures RoleCount(r, Spy) == 0
  {
    var r := seq(|ps|, i requires 0 <= i < |ps| => ps[i].(role := Civilian));
    NoneHold(r, Spy);
    r
  }

  /** A role nobody holds has count zero. */
  lemma {:induction false} NoneHold(ps: seq<Player>, role: Role)
    requires forall i :: 0 <= i < |ps| ==> ps[i].role != role
    ensures RoleCount(ps, role) == 0
    decreases |ps|
  {
    if |ps| > 0 {
      NoneHold(ps[..|ps| - 1], role);
    }
  }

  /** The spy count a round uses: a request of at least `n` is lowered to
      `max(1, n - 1)`; a smaller request stands as it is. */
  function ClampSpies(requested: int, n: nat): (k: int)
    ensures n >= 2 ==> k < n
    ensures requested < n ==> k == requested
    ensures requested >= 1 && n >= 2 ==> k == if requested < n - 1 then requested else n - 1
    ensures requested >= n && n < 2 ==> k == 1
  {
    if requested >= n then (if n - 1 > 1 then n - 1 else 1) else requested
  }

  /** The spy loop, one accepted pick at a time: `pick(step)` stands for the draw
      that hit a player not yet spy, which becomes spy. A draw that hits a spy changes
      nothing and is not modelled, so each step chooses among the non-spies: index
      `pick(step)` modulo their number. Exactly `k` more players end up spy; no spy is
      unmarked and no civilian changes otherwise. */
  function MarkSpies(ps: seq<Player>, k: nat, pick: nat -> nat, step: nat): (r: seq<Player>)
    requires k <= |NonSpyIndices(ps)|
    ensures SameSeats(ps, r)
    ensures forall i :: 0 <= i < |ps| && ps[i].role == Spy ==> r[i].role == Spy
    ensures forall i :: 0 <= i < |ps| && r[i].role != Spy ==> r[i].role == ps[i].role
    ensures RoleCount(r, Spy) == RoleCount(ps, Spy) + k
    decreases k
  {
    if k == 0 then ps
    else
      var free := NonSpyIndices(ps);
      var idx := free[pick(step) % |free|];
      MarkOne(ps, idx);
      MarkSpies(ps[idx := ps[idx].(role := Spy)], k - 1, pick, step + 1)
  }

  /** Marking one non-spy adds one spy and touches nothing else. */
  lemma MarkOne(ps: seq<Player>, idx: nat)
    requires idx < |ps| && ps[idx].role != Spy
    ensures var next := ps[idx := ps[idx].(role := Spy)];
            && SameSeats(ps, next)
            && (forall i :: 0 <= i < |ps| && ps[i].role == Spy ==> next[i].role == Spy)
            && (forall i :: 0 <= i < |ps| && next[i].role != Spy ==> next[i].role == ps[i].role)
            && RoleCount(next, Spy) == RoleCount(ps, Spy) + 1
  {
    RoleCountUpdate(ps, idx, ps[idx].(role := Spy), Spy);
  }

  /** Roles for a new round with `k` spies: exactly `k` players are spies and every
      other player is a civilian; seats are unchanged. */
  function AssignRoles(ps: seq<Player>, k: nat, pick: nat -> nat): (r: seq<Player>)
    requires k <= |ps|
    ensures SameSeats(ps, r)
    ensures forall i :: 0 <= i < |r| ==> r[i].role == Spy || r[i].role == Civilian
    ensures RoleCount(r, Spy) == k
    ensures RoleCount(r, Civilian) == |ps| - k
  {
    var reset := ResetRoles(ps);
    var r := MarkSpies(reset, k, pick, 0);
    RolesSplit(r);
    r
  }

  /** When every player is spy or civilian, the two counts add up to the roster. */
  lemma {:induction false} RolesSplit(ps: seq<Player>)
    requires forall i :: 0 <= i < |ps| ==> ps[i].role == Spy || ps[i].role == Civilian
    ensures RoleCount(ps, Spy) + RoleCount(ps, Civilian) == |ps|
    decreases |ps|
  {
    if |ps| > 0 {
      RolesSplit(ps[..|ps| - 1]);
    }
  }
}

=== FILE: types.dfy ===
/** The records the game server keeps in memory, and the events its handlers emit.

    A room is one entry of the server's `rooms` object; a player is one element of a
    room's `players` array. The advisory timer fields are not modelled: only a handler
    outside this model relays them, and nothing ever changes them. */
module Types {

  datatype Option<+T> = None | Some(value: T)

  /** A player's role for the current round; `Unassigned` is the `null` a player
      carries from the moment it joins until the first round starts. */
  datatype Role = Unassigned | Civilian | Spy

  datatype Player = Player(id: string, name: string, isHost: bool, role: Role)

  /** The ordered association lists that stand for JavaScript objects keyed by
      strings: `votes` maps a voter's socket id to the suspect's id, a tally maps a
      suspect's id to the number of voters naming it. Key order is insertion order. */
  type Votes = seq<(string, string)>
  type Tally = seq<(string, nat)>

  /** `votes` is absent (JavaScript `undefined`) until the first round or voting
      phase of the room sets it; `customWords` is absent until the host supplies it. */
  datatype Room = Room(
    code: string,
    players: seq<Player>,
    gameStarted: bool,
    hostId: string,
    category: string,
    spiesCount: int,
    customWords: Option<seq<string>>,
    secretWord: string,
    votes: Option<Votes>)

  type Rooms = map<string, Room>

  /** The most players a room admits. */
  const MaxPlayers: nat := 20
  /** The fewest players a round can start with. */
  const MinPlayers: nat := 3

  /** The user-facing error conditions, in place of the server's Arabic texts. */
  datatype Error = RoomNotFound | GameAlreadyStarted | RoomFull | TooFewPlayers | NoCustomWords

  datatype Winner = SpyWins | CiviliansWin

  /** The id and name of a player, as the voting and game-over broadcasts list them. */
  datatype PlayerInfo = PlayerInfo(id: string, name: string)

  datatype Msg =
    | RoomJoined(roomCode: string, isHost: bool, playerId: string)
    | ErrorMessage(error: Error)
    | UpdatePlayers(roster: seq<Player>)
      /** `hasCustomWords` is absent from the messages of create and join, and is
          `undefined` in the settings broadcast while no custom words were set. */
    | Settings(category: string, spiesCount: int, hasCustomWords: Option<bool>)
    | GameStart(role: Role, word: string, firstPlayer: string)
    | VotingPhase(candidates: seq<PlayerInfo>)
    | VoteUpdate(count: nat, total: nat)
    | GameOver(secretWord: string, spies: seq<string>, winner: Winner, tally: Tally, players: seq<PlayerInfo>)
    | YouAreHost
    | ReturnToLobby

  /** An event goes either to one socket (the caller, or a player by its id) or to
      every socket grouped under a room code. */
  datatype Dest = ToSocket(id: string) | ToRoom(code: string)

  datatype Event = Emit(dest: Dest, msg: Msg)

  /** The result of one handler: the new `rooms` object and the events emitted, in
      order; or `Threw` when the handler raises a TypeError (reading `votes` of a
      room that never had a round or voting phase). */
  datatype Outcome = Next(rooms: Rooms, events: seq<Event>) | Threw

  function Info(p: Player): PlayerInfo
  {
    PlayerInfo(p.id, p.name)
  }

  function Infos(ps: seq<Player>): (r: seq<PlayerInfo>)
    ensures |r| == |ps|
    ensures forall i :: 0 <= i < |ps| ==> r[i].id == ps[i].id && r[i].name == ps[i].name
  {
    seq(|ps|, i requires 0 <= i < |ps| => Info(ps[i]))
  }

  /** True when some player of `ps` has the socket id `id`. */
  predicate InRoom(ps: seq<Player>, id: string)
  {
    exists i :: 0 <= i < |ps| && ps[i].id == id
  }
}
